=== FILE: README.md ===
# tf-exchange currency engine in Dafny

This project models the currency engine of `tf-exchange`. The engine handles Team Fortress 2's two-denomination currency: keys, plus refined metal. It covers three layers:

- the rounding primitives of `src/lib/utils.ts` (`roundMetal`, `roundInt`, `toScrap`);
- the `Currency` value of `src/classes/currency.ts`: the constructor, the four `fromX` factories, the four `toX` converters, the `addX` / `subtractX` pairs and `copy`;
- the `Calculator` of `src/classes/calculator.ts`: the constructor, `add`, `subtract`, `multiply`, `divide` and `sum`.

Refined metal only exists as `whole + 0.11 * d` with `0 <= d <= 8`, because `0.11` stands for one ninth of a refined. One refined is nine scrap, and one reclaimed is three scrap.

The library computes with JavaScript floats that stand for decimals. The model keeps every quantity as an exact integer:

| quantity | model unit | example |
|---|---|---|
| refined metal | hundredths of a refined | 23.44 ref is `2344` |
| reclaimed metal | hundredths of a reclaimed | |
| scrap | whole scrap | |
| exchange rate | hundredths of a refined per key | 62.66 is `6266` |
| fractional key count passed to `fromKeys` / `addKeys` | ten-thousandths of a key | the library keeps four decimals |
| `toKeys` result | hundredths of a key | two decimals |

`Math.round` becomes `Arith.RoundDiv` (the nearest integer, a half rounded up). Truncation (`parseInt`, `roundBySign`, `convertExchangeToKeys`) becomes `Arith.Trunc`.

A thrown `CurrencyError` or `RangeError` becomes `Results.Err` of the matching variant. The in-place `Object.assign` update of `addX` is modelled by returning the new value.

## Modules

- `Results` (`results.dfy`): the two error kinds, `Option` for the constructors' optional arguments, and a `Result` type.
- `Arith` (`arith.dfy`): `Math.round` and truncation on integer ratios, with their uniqueness, monotonicity and scaling lemmas.
- `Utils` (`utils.dfy`): the rounding primitives, the lattice, and the reference `RefinedOfScrap`, the lattice point worth exactly `s` scrap. The central lemmas are `LatticeToScrap`, `ScrapRoundTrip` and `LatticeRoundTrip`: scrap counts and lattice points correspond one to one.
- `Currencies` (`currency.dfy`): the `Currency` value. Its central lemmas:
  - `FromScrapRoundTrip`: `toScrap(fromScrap(s))` is `s`.
  - `NormalizedRoundTrip`: `fromScrap(toScrap(c))` is `c` for every normalised `c`.
- `Calculators` (`calculator.dfy`): the calculator.
- `Scenarios` (`scenarios.dfy`): the library's own test vectors, stated on the model.

### Reconstructed helpers

`currency.ts` imports several helpers that `src/lib/utils.ts` does not define:

- `convertMetal`
- the one-argument `toReclaimed`
- the three-argument `toScrap`, `toReclaimed` and `toRefined`
- `toKeys`
- `roundFloat`
- `roundBySign`
- `convertExchangeToKeys`
- `isValidExchange`

Each is reconstructed from its call sites and from the test vectors. Each is marked "Reconstructed" where it is defined:

- `Utils.ConvertMetal` divides by the number of units in a refined, rounds to hundredths, then snaps to the lattice, keeping the sign.
- `Utils.ConvertExchangeToKeys` returns 0 without an exchange rate and truncates otherwise.
- `Utils.RoundBySign` truncates towards zero.
- `Utils.RoundFloat` rounds to `p` decimals.
- `Utils.MissingExchange`, the model of `isValidExchange`, is true when a strictly positive amount meets an exchange rate that is not positive.
- The three-argument `toScrap` prices each key at `toScrap(exchange)` scrap and adds `toScrap(refined)`. `Currencies.ToScrap` does this.
- `toReclaimed` and `toRefined` convert that scrap total.
- `toKeys` adds the refined, priced in keys, to the keys.
- The one-argument `toReclaimed` is `Utils.ToReclaimed`: the rate's scrap (`toScrap(exchange)`) over three, rounded to hundredths of a reclaimed. At 56.22 this is 168.67 rec a key, while three times the rate would be 168.66 rec. No test pins which of the two the code computes.

The three-argument `toScrap` prices each key at the exchange rate converted to scrap first, the way `fromScrap` multiplies the key count by `exchangeInScrap` (`src/classes/currency.ts:51`). For 12 keys and 46.22 ref at 56.22 this gives 12 × 506 + 416 = 6488 scrap, the value `test/currency.spec.ts:28-34` expects. Adding the refined first, 12 × 56.22 + 46.22 = 720.86 ref, would give 6487 scrap.

No test pins the three-argument `toReclaimed` and `toRefined`. The model converts the scrap total. Pricing each key in the target unit instead, as `fromReclaimed` and `fromRefined` do (`:68`, `:85`), gives different results on some inputs:

- 2 keys at 56.22 are 337.33 rec under the scrap-total conversion, but 2 × 168.67 = 337.34 rec priced per key.
- 9 keys at 62.66 are 564.00 ref under the scrap-total conversion, but 563.94 ref priced per key.

### Sum and the two kinds of rounding

As the code does, `sum` lifts its total back at exchange rate 0. The result therefore never holds keys; `Calculators.Sum` states this.

`roundMetal` as written takes the whole part with `Math.floor`, so it is not sign-symmetric (see Findings). The constructor and `convertMetal` use the sign-symmetric lift `Utils.RoundMetalSigned`, the behaviour the negative test vectors expect. The as-written `Utils.RoundMetal` is modelled next to it, and `RoundMetalIdempotent` proves that the two agree on non-negative lattice amounts.

## Model

| member | source | states |
|---|---|---|
| Utils.RefinedOfScrap | src/lib/utils.ts:16-18 | the reference inverse of `toScrap`, the signed lattice point worth `s` scrap: of the sign of `s`, and nine times it is within 0.08 of `s` |
| Utils.RoundMetal | src/lib/utils.ts:1-8 | `roundMetal` as written: the result is `whole + 0.11 * d` with `d <= 8` (a rounded `d` of 9 carries into the whole part) and moves the input by at most -0.05 / +0.06 |
| Utils.RoundMetalSigned | src/lib/utils.ts:1-8 | the sign-symmetric `roundMetal`: on the signed lattice, within 0.06 of the input, and of the input's sign |
| Utils.RoundInt | src/lib/utils.ts:10-12 | `roundInt` returns an integer within a quarter / three quarters of `n`, on the side of zero (half-step rounding, then `parseInt` truncation) |
| Utils.ToScrap | src/lib/utils.ts:16-18 | `toScrap(refined)` is an integer within 0.25 / 0.75 of nine times the refined amount |
| Utils.ToReclaimed | src/classes/currency.ts:65 | the one-argument `toReclaimed` is the amount's scrap over three, rounded to the nearest hundredth of a reclaimed, and not negative for a non-negative amount |
| Utils.ConvertMetal | src/classes/currency.ts:53 | `convertMetal` always lands on the signed lattice, keeps the sign of its input, and is within 0.065 ref (half a hundredth plus the six-hundredths snap) of the amount it converts |
| Utils.RoundFloat | src/classes/currency.ts:100 | `roundFloat(n / d, p)` is `n / d` to the nearest `10^-p` |
| Utils.RoundBySign | src/classes/currency.ts:99 | `roundBySign` truncates towards zero: the remainder is smaller than the divisor and of the dividend's sign |
| Utils.ConvertExchangeToKeys | src/classes/currency.ts:50 | without an exchange rate no keys are split off |
| Utils.KeysRemainder | src/classes/currency.ts:50-51 | with a positive rate the whole keys leave less than one key's worth, of the amount's sign |
| Utils.SnapNonNegative | src/lib/utils.ts:1-8 | as-written `roundMetal` snaps a non-negative amount within 0.05 of `w + 0.11 * d` onto exactly that point |
| Utils.SnapToLattice | src/lib/utils.ts:1-8 | the sign-symmetric rounding snaps any amount within 0.05 of a signed lattice point onto it |
| Utils.RoundMetalIdempotent | src/lib/utils.ts:1-8 | lattice amounts are left unchanged, so rounding is idempotent; the as-written rounding agrees on non-negative lattice amounts |
| Utils.RoundedRate | src/classes/currency.ts:82 | the exchange rate `fromRefined` rounds with `roundMetal` stays non-negative, equals its sign-symmetric rounding, and is unchanged when already on the lattice |
| Utils.RoundMetalSignedOdd | src/lib/utils.ts:1-8 | the sign-symmetric rounding commutes with negation |
| Utils.LatticeToScrap | src/lib/utils.ts:16-18 | `toScrap(w + 0.11 * d)` is exactly `9 * w + d`, and its negation is `-(9 * w + d)` |
| Utils.ToScrapNegate | src/lib/utils.ts:16-18 | on the lattice `toScrap` commutes with negation |
| Utils.PointOfScrap | src/lib/utils.ts:16-18 | `9 * w + d` scrap is the lattice point `w + 0.11 * d`, with either sign |
| Utils.ScrapRoundTrip | src/lib/utils.ts:16-18 | scrap to the lattice and back through `toScrap` is the identity |
| Utils.LatticeRoundTrip | src/lib/utils.ts:16-18 | a lattice amount to scrap and back is the identity |
| Utils.ToScrapMonotone | src/lib/utils.ts:16-18 | `toScrap(0) = 0`, and `toScrap` never decreases |
| Utils.ConvertScrap | src/classes/currency.ts:53 | `convertMetal` of whole scrap is the lattice point worth exactly that scrap |
| Utils.ConvertRefined | src/classes/currency.ts:87 | `convertMetal` of refined moves an amount by at most 0.06 ref and leaves a lattice amount unchanged |
| Utils.ConvertReclaimed | src/classes/currency.ts:70 | scrap expressed in hundredths of a reclaimed and converted back is still worth exactly that scrap |
| Utils.LatticeAdditive | src/lib/utils.ts:16-18 | the decimal sum of two lattice amounts, although off the lattice, converts to the sum of their scrap |
| Utils.RoundMetalFloorDrift | src/lib/utils.ts:1-8 | as-written `roundMetal` moves -7.33 to -7.34 and -31.33 to -31.34, while the sign-symmetric rounding keeps both |
| Currencies.New | src/classes/currency.ts:36-39 | missing keys and refined default to 0; refined is snapped onto the lattice, within 0.06 and with its sign, and a lattice amount is kept exactly |
| Currencies.FromScrapRatio | src/classes/calculator.ts:82-84 | `fromScrap` of fractional scrap `num / den`: refined on the lattice, keys and refined of the sign of the amount, no keys when a key is worth no scrap |
| Currencies.RatioNear | src/classes/calculator.ts:82-84 | the keys and refined `fromScrap` makes of fractional scrap `num / den` are worth `num / den` to within two thirds of a scrap |
| Currencies.RatioUnnormalised | src/classes/calculator.ts:82-84 | 563.5 scrap at 62.66 lifts to 0 keys and 62.66 ref: a full key's worth of refined and no key |
| Currencies.RatioKeys | src/classes/calculator.ts:82-84 | the whole keys split off a fractional amount leave less than a key's worth |
| Currencies.FromScrap | src/classes/currency.ts:47-56 | keys times a key's scrap plus the refined's scrap is exactly `s`, the remainder worth less than a key and of the keys' sign; at a zero rate there are no keys and all of `s` is refined |
| Currencies.FromReclaimed | src/classes/currency.ts:64-73 | `fromReclaimed` puts refined on the lattice, with keys and refined of the amount's sign |
| Currencies.FromReclaimedKeys | src/classes/currency.ts:64-68 | the whole keys leave less than a key's worth in reclaimed, and there are none when a key is worth no reclaimed |
| Currencies.FromRefined | src/classes/currency.ts:81-90 | `fromRefined` as written puts refined on the lattice, with keys and refined of the amount's sign |
| Currencies.FromRefinedSplit | src/classes/currency.ts:81-87 | at a positive lattice rate the keys leave a decimal remainder of the amount's sign smaller than the rate, and the refined is within 0.06 of that remainder |
| Currencies.FromRefinedKeys | src/classes/currency.ts:81-85 | the whole keys leave less than a key's worth, and there are none without an exchange rate |
| Currencies.FromRefinedExact | src/classes/currency.ts:81-90 | the corrected `fromRefined`: normalised, and worth exactly the scrap of the amount |
| Currencies.FromKeys | src/classes/currency.ts:98-112 | fails with `CurrencyError` exactly when a positive fractional key meets no positive rate; otherwise the keys are the count truncated towards zero, and the refined is on the lattice and sign-consistent with them |
| Currencies.PriceFraction | src/classes/currency.ts:106-111 | a priced fraction keeps the keys and yields lattice refined of the fraction's sign |
| Currencies.FractionPrice | src/classes/currency.ts:106-109 | the refined is worth the key fraction times a key's scrap, rounded to the nearest scrap |
| Currencies.FromKeysPrice | src/classes/currency.ts:98-112 | `fromKeys` prices the fractional key at the exchange rate to the nearest scrap |
| Currencies.PositiveFraction | src/classes/currency.ts:99-102 | the fraction left after truncation is positive exactly when the count is positive and not whole |
| Currencies.FromKeysWhole | src/classes/currency.ts:98-112 | a whole number of keys converts to exactly those keys and no refined, at any rate |
| Currencies.ToScrap | src/classes/currency.ts:144-146 | fails with `CurrencyError` exactly when keys meet no positive rate; a keys-free lattice value's scrap maps back to its refined; a sign-consistent value keeps its sign |
| Currencies.ToReclaimed | src/classes/currency.ts:178-180 | fails exactly when `toScrap` does; otherwise it is the scrap total over three to the nearest hundredth |
| Currencies.ToRefined | src/classes/currency.ts:212-214 | fails exactly when `toScrap` does; otherwise it is the lattice amount worth exactly the scrap total |
| Currencies.ToKeysAt | src/classes/currency.ts:247-249 | the `toKeys` helper fails with `CurrencyError` exactly when refined meets no positive rate |
| Currencies.ToKeysAtValue | src/classes/currency.ts:223 | at `p` decimals the keys are exact and the refined over the rate is rounded to the nearest `10^-p` |
| Currencies.ToKeys | src/classes/currency.ts:247-249 | `toKeys` fails exactly when refined meets no positive rate |
| Currencies.ToKeysValue | src/classes/currency.ts:247-249 | `toKeys` is the keys plus refined over the rate, to the nearest hundredth of a key |
| Currencies.AddScrap | src/classes/currency.ts:120-125 | fails exactly when `toScrap` does; the result is normalised and worth the old total plus `a` |
| Currencies.SubtractScrap | src/classes/currency.ts:133-137 | the result is normalised and worth the old total minus `a` |
| Currencies.AddReclaimed | src/classes/currency.ts:154-159 | fails exactly when `toScrap` does; refined is on the lattice and keys and refined follow the sign of the new reclaimed total |
| Currencies.AddReclaimedExact | src/classes/currency.ts:154-159 | the corrected `addReclaimed`: fails exactly when `toScrap` does, the result is normalised, and adding whole reclaimed adds exactly three scrap each |
| Currencies.ReclaimedDrift | src/classes/currency.ts:154-159 | as-written `addReclaimed` of nothing to 2 keys at 56.22 gives 1 key and 56.22 ref, which is not normalised; the corrected one gives back 2 keys |
| Currencies.ReclaimedTripleRate | src/classes/currency.ts:64-73 | with a key taken as three times 56.22, 168.66 rec, 337.33 rec split into 2 keys and 0.01 rec, and 0.01 rec converts to no refined: the `addReclaimed` input of the Findings row does not drift |
| Currencies.ReclaimedPerKeyPricing | src/classes/currency.ts:64-73 | a key at 56.22 is 168.67 rec, and 2 × 168.67 rec lifts back to exactly 2 keys: priced per key, the `addReclaimed` input of the Findings row does not drift |
| Currencies.ReclaimedOfScrap | src/classes/currency.ts:64-73 | where a key is a whole number of reclaimed, `fromReclaimed` of a scrap amount written in reclaimed is `fromScrap` of that amount |
| Currencies.AddReclaimedWhole | src/classes/currency.ts:154-159 | where a key is a whole number of reclaimed, adding `j` whole reclaimed is `fromScrap` of the total plus `3 * j` scrap |
| Currencies.SubtractReclaimedWhole | src/classes/currency.ts:167-171 | at such a rate subtracting `j` whole reclaimed is `fromScrap` of the total minus `3 * j` scrap |
| Currencies.AddSubtractReclaimed | src/classes/currency.ts:154-171 | at such a rate adding then subtracting the same whole reclaimed gives the value back re-normalised, and a normalised value exactly |
| Currencies.SubtractReclaimed | src/classes/currency.ts:167-171 | fails exactly when `toScrap` does; refined is on the lattice |
| Currencies.AddRefined | src/classes/currency.ts:188-193 | `addRefined` as written: fails exactly when `toScrap` does; refined is on the lattice and keys and refined follow the sign of the new refined total |
| Currencies.SubtractRefined | src/classes/currency.ts:201-205 | fails exactly when `toScrap` does; refined is on the lattice and keys and refined follow the sign of the new refined total |
| Currencies.AddRefinedExact | src/classes/currency.ts:188-193 | the corrected `addRefined`: fails exactly when `toScrap` does, the result is normalised, and adding a lattice amount adds exactly its scrap |
| Currencies.SubtractRefinedExact | src/classes/currency.ts:201-205 | the corrected `subtractRefined`: normalised, and subtracting a lattice amount subtracts exactly its scrap |
| Currencies.AddRefinedDrift | src/classes/currency.ts:188-193 | as-written `addRefined` of 564 ref to nothing at 62.66 gives 9 keys and 0.11 ref, worth 5077 scrap; the corrected one gives 9 keys, worth the 5076 scrap added |
| Currencies.FromRefinedWholeRate | src/classes/currency.ts:81-90 | at a rate of whole refined, `fromRefined` of a lattice amount is the corrected, exact split |
| Currencies.AddRefinedWholeRate | src/classes/currency.ts:188-193 | at a rate of whole refined, `addRefined` as written agrees with the corrected one whenever the refined total is on the lattice |
| Currencies.AddKeys | src/classes/currency.ts:222-228 | fails when refined meets no positive rate; a keys-only value plus `k` is `fromKeys` of the new key count |
| Currencies.SubtractKeys | src/classes/currency.ts:236-240 | a keys-only value minus `k` is `fromKeys` of the new key count |
| Currencies.RepriceFraction | src/classes/currency.ts:222-225 | refined of at most one key on the lattice, priced in keys to four decimals (`toKeys`) and priced back to the nearest scrap (`fromKeys`), is worth its own scrap when a key is under 8400 scrap |
| Currencies.FromKeysWorth | src/classes/currency.ts:98-112 | `fromKeys` of whole keys plus a fraction whose price rounds to `s` scrap is worth those keys and `s` scrap, and keeps at most a key's worth of refined |
| Currencies.AddWholeKeys | src/classes/currency.ts:222-228 | adding `j` whole keys to a value with at most a key's worth of lattice refined adds exactly `j` keys' worth of scrap and keeps those provisos |
| Currencies.SubtractWholeKeys | src/classes/currency.ts:236-240 | taking `j` whole keys off a value with at most a key's worth of lattice refined takes off exactly `j` keys' worth of scrap |
| Currencies.AddSubtractKeys | src/classes/currency.ts:222-240 | adding and then subtracting the same whole keys gives back a value worth the original |
| Currencies.Copy | src/classes/currency.ts:255-257 | the copy keeps the keys, puts refined on the lattice, and equals the original whenever its refined is on the lattice |
| Currencies.FromScrapRoundTrip | src/classes/currency.ts:47-56 | `fromScrap(s)` followed by `toScrap` at the same rate gives back `s` |
| Currencies.NormalizedRoundTrip | src/classes/currency.ts:144-146 | a normalised value survives `toScrap` then `fromScrap` unchanged |
| Currencies.FromScrapSplit | src/classes/currency.ts:47-56 | any split of `s` into whole keys and a same-sign remainder worth less than a key is the split `fromScrap` makes |
| Currencies.SameWorth | src/classes/currency.ts:47-56 | two normalised values worth the same scrap are equal |
| Currencies.AddSubtractScrap | src/classes/currency.ts:120-137 | `addScrap(a)` then `subtractScrap(a)` gives the value back re-normalised, and a normalised value exactly |
| Currencies.ReclaimedRoundTrip | src/classes/currency.ts:64-73 | at rate 0, `fromReclaimed(toReclaimed())` is `fromScrap(toScrap())`: going through reclaimed loses nothing |
| Currencies.ReclaimedAtZero | src/classes/currency.ts:64-73 | without a rate `fromReclaimed` keeps no keys and converts the whole amount |
| Currencies.ScrapAtZero | src/classes/currency.ts:47-53 | without a rate `fromScrap` keeps no keys and puts the whole amount in refined |
| Currencies.FromRefinedDrift | src/classes/currency.ts:81-90 | as-written `fromRefined` of 564 ref at 62.66 gives 9 keys and 0.11 ref, one scrap more than the amount; the corrected one gives 9 keys |
| Currencies.RefinedKeysExact | src/classes/currency.ts:81-85 | at a lattice rate, `k` keys' worth plus a smaller remainder splits into `k` keys |
| Currencies.RefinedRemainder | src/classes/currency.ts:81-90 | that split leaves the remainder rounded onto the lattice |
| Currencies.FromScrapRatioWhole | src/classes/calculator.ts:82-84 | a fractional amount that is whole is lifted exactly as the whole amount |
| Calculators.NewCalculator | src/classes/calculator.ts:23-29 | a missing rate is 0; a negative rate, and only that, is a `RangeError` |
| Calculators.Add | src/classes/calculator.ts:37-41 | fails exactly when an operand cannot be priced; the result is normalised and worth the sum of the operands' scrap |
| Calculators.Subtract | src/classes/calculator.ts:49-53 | fails exactly when an operand cannot be priced; the result is normalised (negative results sign-consistent) and worth the difference |
| Calculators.Multiply | src/classes/calculator.ts:61-69 | a zero factor is a `RangeError`; otherwise the result is normalised and worth `factor` times the operand |
| Calculators.Divide | src/classes/calculator.ts:77-85 | a zero divisor is a `RangeError`; otherwise it fails exactly when the operand cannot be priced, and the result is on the lattice and sign-consistent |
| Calculators.DivideScrap | src/classes/calculator.ts:82-84 | the lifted quotient is on the lattice and sign-consistent |
| Calculators.SumScrap | src/classes/calculator.ts:93 | the running total fails exactly when some element cannot be priced |
| Calculators.Sum | src/classes/calculator.ts:92-96 | fails exactly when some element cannot be priced; otherwise the result holds no keys and is worth the total at rate 0; the empty list sums to zero |
| Calculators.Total | src/classes/calculator.ts:93 | the loop computes the left-to-right total of the elements' scrap |
| Calculators.PrefixError | src/classes/calculator.ts:93 | one element that cannot be priced makes the whole total fail |
| Calculators.FromScrapZero | src/classes/currency.ts:47-56 | zero scrap lifts to the zero value |
| Calculators.AddCommutative | src/classes/calculator.ts:37-41 | `add(a, b)` equals `add(b, a)` |
| Calculators.SubtractSelf | src/classes/calculator.ts:49-53 | `subtract(a, a)` is the zero value |
| Calculators.AddThenSubtract | src/classes/calculator.ts:37-53 | `subtract(add(a, b), b)` is `a` re-normalised, and `a` itself when normalised |
| Calculators.MultiplyOne | src/classes/calculator.ts:61-69 | multiplying by one re-normalises and leaves a normalised value unchanged |
| Calculators.DivideExact | src/classes/calculator.ts:77-85 | when the divisor divides the scrap total, the result is worth exactly the quotient |
| Calculators.DivideNear | src/classes/calculator.ts:77-85 | for any non-zero divisor the result times the divisor is worth the operand to within two thirds of the divisor in scrap |
| Calculators.DivideScrapExact | src/classes/calculator.ts:82-84 | an exact scrap quotient, of either sign of divisor, is lifted as a whole amount |
| Calculators.DivideThenMultiply | src/classes/calculator.ts:61-85 | dividing exactly and multiplying back by the divisor restores the value re-normalised |
| Scenarios.Lattice | src/lib/utils.ts:16-18 | `w + 0.11 * d` and its negation are worth `±(9 * w + d)` scrap and are kept by the constructor |
| Scenarios.ExchangeInScrap | src/lib/utils.ts:16-18 | rates 62.66, 66.88, 55, 56.22 and 59 are 564, 602, 495, 506 and 531 scrap |
| Scenarios.UtilsExamples | test/utils.spec.ts:4-39 | `roundFloat` to 2 and 4 decimals; `convertExchangeToKeys` of 45.77 with no rate is 0 and of 131.66 at 55 is 2 |
| Scenarios.CurrencyExamples | test/currency.spec.ts:6-54 | the copy equals the original; (12, 46.22) is 6488 scrap at 56.22 and fails with no rate; (2, 37.11) is 2.66 keys at 56.22; (22, 13.55) fails `toKeys` with no rate |
| Scenarios.ConstructorExamples | test/calculator.spec.ts:6-17 | default values, and a negative calculator rate is a `RangeError` |
| Scenarios.AddToWholeKey | test/calculator.spec.ts:21-34 | 23.44 + 31.55 ref at 55 is exactly one key |
| Scenarios.AddCarries | test/calculator.spec.ts:36-49 | (5, 23.88) + (2, 47.33) at 62.66 is (8, 8.55) |
| Scenarios.AddMetalOnly | test/calculator.spec.ts:51-64 | 43.33 + 57.11 ref at 66.88 is (1, 33.55) |
| Scenarios.AddNegatives | test/calculator.spec.ts:66-79 | (-3, -7.33) + (-7, -16.44) at 66.88 is (-10, -23.77) |
| Scenarios.SubtractBorrows | test/calculator.spec.ts:83-96 | (5, 23.88) - (2, 47.33) at 66.88 is (2, 43.44) |
| Scenarios.SubtractToZero | test/calculator.spec.ts:98-111 | (1, 11.22) - (1, 11.22) at 62.66 is zero |
| Scenarios.SubtractBelowZero | test/calculator.spec.ts:113-126 | (1, 23.88) - (2, 47.33) at 66.88 is (-1, -23.44) |
| Scenarios.MultiplyByThree | test/calculator.spec.ts:130-142 | (4, 10.88) times 3 at 62.66 is (12, 32.66) |
| Scenarios.MultiplyByNegative | test/calculator.spec.ts:144-179 | (4, 10.88) times -2 and (-4, -10.88) times 2 are (-8, -21.77) at 62.66; (7, 40.77) times 0 at 66.88 is a `RangeError` |
| Scenarios.DivideEvenly | test/calculator.spec.ts:183-232 | (4, 10.88) over 2 at 62.66 is (2, 5.44); (7, 40.77) over 0 at 66.88 is a `RangeError` |
| Scenarios.DivideInexact | test/calculator.spec.ts:197-209 | (3, 22.11) over -2 at 62.66 is (-1, -42.44) |
| Scenarios.InexactRatio | test/calculator.spec.ts:197-209 | half of -1891 scrap at 62.66 lifts to (-1, -42.44) |
| Scenarios.DivideNegative | test/calculator.spec.ts:211-223 | -11 keys over 2 at 62.66 is (-5, -31.33) |
| Scenarios.KeysPriced | src/classes/currency.ts:98-112 | `fromKeys` of a count whose whole keys and priced fraction are known is that pair |
| Scenarios.RefinedBelowRate | src/classes/currency.ts:81-90 | a non-negative lattice amount below the rate is kept whole as refined |
| Scenarios.RefinedAboveMinusRate | src/classes/currency.ts:81-90 | a non-positive lattice amount above minus the rate is kept whole as refined |
| Scenarios.MetalInKeys | src/classes/currency.ts:247-249 | a keys-free value is the nearest hundredth of a key to its refined over the rate |
| Scenarios.SumOfThree | src/classes/calculator.ts:93 | the total of three priceable values is the sum of their scrap |
| Scenarios.SumPositive | test/calculator.spec.ts:236-248 | the operands `fromKeys(1.15)`, `fromRefined(42.66)`, `fromKeys(4.74)` at 55 total 3299 scrap |
| Scenarios.SumPositiveInKeys | test/calculator.spec.ts:243-247 | 3299 scrap lifted at rate 0 is 366.55 ref, which is 6.66 keys at 55 |
| Scenarios.SumNegative | test/calculator.spec.ts:250-262 | the operands `fromKeys(-2.7)`, `fromRefined(-31.88)`, `fromKeys(-2.74)` at 55 total -2979 scrap |
| Scenarios.SumNegativeInKeys | test/calculator.spec.ts:257-261 | -2979 scrap lifted at rate 0 is -331 ref, which is -6.02 keys at 55 |
| Scenarios.SumMixed | test/calculator.spec.ts:264-276 | the operands `fromKeys(3.4)`, `fromRefined(21.55)`, `fromKeys(-2.74)` at 59 total 544 scrap |
| Scenarios.SumMixedInKeys | test/calculator.spec.ts:271-275 | 544 scrap lifted at rate 0 is 60.44 ref, which is 1.02 keys at 59 |

## Left out

- `toString`, `pluralize`, `createInclusiveString`, `json` and `stringify` (src/classes/currency.ts:263-293) are presentation and JSON serialisation through helpers that are not part of this model.
- Utils.ToReclaimed: the one-argument `toReclaimed(exchange)` is not defined in the files modelled, and its reconstruction as `toScrap(exchange) / 3` rounded to hundredths is unpinned; three times the rate differs by a hundredth on some rates (56.22: 168.67 against 168.66 rec a key).
- Currencies.ToReclaimed: converts the scrap total. Whether the reconstructed helper does this, or prices each key in reclaimed first, is not pinned by any test; the two differ by a hundredth on some inputs (2 keys at 56.22: 337.33 against 337.34 rec).
- Currencies.ToRefined: converts the scrap total, with the same unpinned choice (9 keys at 62.66: 564.00 against 563.94 ref).
- Floating point: `toFixed` / `parseFloat` artefacts and binary representation errors are not modelled. Every decimal is an exact integer count of hundredths or ten-thousandths.
- Operand amounts finer than the units above are not modelled.
- The in-place `Object.assign` update of `this` by `addX` / `subtractX` is modelled as returning the new value; object identity is not modelled.
- Exceptions are `Result.Err` values; `CurrencyError` and `RangeError` are kept distinct. The error messages are not modelled.
- `src/resources/enums.ts` (the constants 9 / 3 / 1 and the decimal precisions) is inlined. The helpers listed under "Reconstructed helpers" are not defined in `src/lib/utils.ts` and are reconstructed.
- Currencies.FromReclaimed: states the lattice and sign of the result and, in `FromReclaimedKeys`, the key split, but not an exact worth. The reclaimed remainder is rounded twice, and only `ReclaimedRoundTrip` (at rate 0) pins the result exactly.
- Currencies.AddReclaimed: states the lattice and sign of the result only. As written the reclaimed total is rounded twice and the result need not be normalised (see Findings, `ReclaimedDrift`). The exact worth is stated for the corrected `AddReclaimedExact`, and for the as-written one only where a key is a whole number of reclaimed (`AddReclaimedWhole`).
- Currencies.SubtractReclaimed: states the lattice of the result only; it is `AddReclaimed` of the negated amount, exact only where a key is a whole number of reclaimed (`SubtractReclaimedWhole`).
- Currencies.AddReclaimedWhole: holds only at rates whose key is a multiple of three scrap, for whole reclaimed; at other rates the rate itself is rounded to hundredths of a reclaimed.
- Currencies.AddSubtractReclaimed: the round trip is stated only at the rates and amounts of `AddReclaimedWhole`.
- Currencies.FromRefined: states the lattice and sign of the result. The split is in `FromRefinedSplit` and `FromRefinedKeys`; the exact worth does not hold as written (see Findings).
- Currencies.AddRefined: states the failure condition, the lattice and the sign of the result only. As written it lifts with `fromRefined`, whose decimal split can drift a scrap from the total (see Findings, `AddRefinedDrift`). The exact worth is stated for the corrected `AddRefinedExact`, and `AddRefinedWholeRate` shows the two agree at whole-refined rates.
- Currencies.SubtractRefined: as `AddRefined`, the lattice and sign of the result only.
- Currencies.AddRefinedExact: the exact worth is stated for lattice amounts only, because off-lattice amounts are rounded when converted to scrap.
- Currencies.SubtractRefinedExact: as `AddRefinedExact`, exact for lattice amounts only.
- Currencies.AddKeys: exact only for a value without refined. With refined, the key count is first rounded to four decimals, so the result is stated through `ToKeysAtValue` and `FromKeysPrice` rather than as one equation; `AddWholeKeys` states the exact worth for whole keys under its provisos.
- Currencies.AddWholeKeys: whole keys only, refined of at most one key's worth, and a key worth under 8400 scrap. Beyond that a ten-thousandth of a key is half a scrap or more, and pricing the refined in keys to four decimals can lose a scrap.
- Currencies.AddSubtractKeys: under the provisos of `AddWholeKeys` only.
- Currencies.SubtractWholeKeys: under the provisos of `AddWholeKeys` only, for the same reason.
- Currencies.SubtractKeys: as `AddKeys`, exact only for a value without refined.
- Currencies.ToKeys: the rounded value is stated in `ToKeysValue`, not in the function's own contract.
- Calculators.Divide: takes an integer divisor; the library accepts any number. The exact worth is stated only when the divisor divides the scrap total (`DivideExact`). Otherwise `DivideNear` states the worth to within two thirds of a scrap, and the result need not be normalised (`RatioUnnormalised`).
- Calculators.Multiply: takes an integer factor; the library accepts any number, and a fractional factor makes fractional scrap, which is not modelled.
- Calculators.DivideScrap: as `Divide`, the lattice and sign of an inexact quotient only.
- Currencies.FromScrapRatio: the result is not promised normalised. A fractional remainder just under a key's worth can snap up to a full key's worth of refined (`RatioUnnormalised`), so only the lattice, the sign and the nearness of `RatioNear` are stated.
- Calculators.SumScrap: states the failure condition; the value is tied to the loop by `Total`.

## Findings

| source | as written | input that shows it | evidently intended | confidence | as-written member | corrected member |
|---|---|---|---|---|---|---|
| src/lib/utils.ts:1-8 | `roundMetal` takes the whole part with `Math.floor`, so a negative amount is rounded on the lattice counted up from the next lower integer | `roundMetal(-7.33)` is -7.34, and the -31.33 that `test/calculator.spec.ts:211-223` expects is moved to -31.34 | a sign-symmetric rounding that leaves negative lattice amounts alone, as the negative test vectors expect | not executed | Utils.RoundMetalFloorDrift | Utils.RoundMetalIdempotent |
| src/classes/currency.ts:81-90 | `fromRefined` splits off keys in decimal refined and snaps only the remainder, so a remainder below one scrap can be rounded up to a whole scrap | 564 ref at 62.66 ref per key is 5076 scrap, exactly 9 keys, yet the remainder 0.06 becomes 0.11 and the result is 9 keys and 0.11 ref | the split made on scrap, like `fromScrap`, so the result is worth exactly the amount | not executed; the key split relies on the reconstructed `convertExchangeToKeys` | Currencies.FromRefinedDrift | Currencies.FromRefinedExact |
| src/classes/currency.ts:188-193 | `addRefined` lifts the new refined total with `fromRefined`, so it inherits that drift | adding 564 ref to nothing at 62.66 gives 9 keys and 0.11 ref, worth 5077 scrap instead of 5076 | adding a lattice amount adds exactly its scrap | not executed; relies on the reconstructed `toRefined` and `convertExchangeToKeys` | Currencies.AddRefinedDrift | Currencies.AddRefinedExact |
| src/classes/currency.ts:154-159 | `addReclaimed` lifts the reclaimed total with `fromReclaimed`, which splits keys off at the rate rounded to hundredths of a reclaimed | 2 keys at 56.22 (506 scrap a key) are 337.33 rec, but a key is taken as 168.67 rec, so adding nothing gives 1 key and 56.22 ref, a key's worth of refined | the total lowered to scrap before it is lifted, so the result is normalised and whole reclaimed add exactly three scrap each | not executed; relies on two reconstructions. The one-argument `toReclaimed(exchange)` is taken as `toScrap(exchange) / 3` rounded to hundredths, 168.67 rec at 56.22; as three times the rate, 168.66 rec, the 337.33 rec are 2 keys and 0.01 rec, which converts to no refined, so there is no drift (`Currencies.ReclaimedTripleRate`). The three-argument `toReclaimed` is taken as converting the scrap total. Priced per key, as `fromReclaimed` prices keys at currency.ts:68, the 2 keys are 337.34 rec and lift back to 2 keys with no drift (`Currencies.ReclaimedPerKeyPricing`) | Currencies.ReclaimedDrift | Currencies.AddReclaimedExact |

The rest of the model uses the corrected rounding: the constructor, `convertMetal` and `Copy` use `Utils.RoundMetalSigned`. `fromRefined` rounds its exchange rate with the as-written, floor-based `Utils.RoundMetal`, as `src/classes/currency.ts:82` does; the two roundings agree on every non-negative rate (`Utils.RoundedRate`, `Utils.RoundMetalIdempotent`).

`Currencies.FromRefined`, `Currencies.AddRefined` and `Currencies.AddReclaimed` are modelled as written, because the `sum` test vectors build their operands with `fromRefined` and no `Calculator` operation calls them. Their exact-worth properties are proved on the corrected `Currencies.FromRefinedExact`, `Currencies.AddRefinedExact` and `Currencies.AddReclaimedExact`.

=== FILE: arith.dfy ===
/** Integer stand-ins for the JavaScript rounding operators the library uses
    on decimal quantities. Every decimal is kept as an integer count of a
    fixed fraction (hundredths, ten-thousandths), so a JavaScript expression
    `x / y` becomes a ratio `n / d` of two integers. */
module Arith {

  function Abs(x: int): nat {
    if x < 0 then -x else x
  }

  function Pow10(p: nat): (r: nat)
    ensures r >= 1
  {
    if p == 0 then 1 else 10 * Pow10(p - 1)
  }

  /** The two precisions the library uses: hundredths and ten-thousandths. */
  lemma Pow10Values()
    ensures Pow10(2) == 100 && Pow10(4) == 10000
  {
    assert Pow10(1) == 10;
    assert Pow10(3) == 1000;
  }

  /** `Math.round(n / d)`: the nearest integer, a half rounded up (towards
      positive infinity). The ensures says that `n / d` lies in the half-open
      interval `[q - 1/2, q + 1/2)`. */
  function RoundDiv(n: int, d: int): (q: int)
    requires d > 0
    ensures d * (2 * q - 1) <= 2 * n < d * (2 * q + 1)
  {
    var q := (2 * n + d) / (2 * d);
    DivBounds(2 * n + d, 2 * d);
    q
  }

  /** Truncation towards zero of `n / d` (JavaScript `Math.trunc`, which is
      `Math.floor` for a non-negative quotient and `Math.ceil` for a negative
      one). Its characterisation is `TruncUnique` / `TruncRemainder`. */
  function Trunc(n: int, d: int): int
    requires d != 0
  {
    var m := Abs(n) / Abs(d);
    if (n >= 0) == (d > 0) then m else -m
  }

  lemma DivBounds(n: int, d: int)
    requires d > 0
    ensures d * (n / d) <= n < d * (n / d) + d
  {
  }

  /** Division by a positive divisor is determined by its bounds. */
  lemma {:induction false} DivUnique(n: int, d: int, q: int)
    requires d > 0
    requires d * q <= n < d * q + d
    ensures n / d == q
  {
    var q' := n / d;
    DivBounds(n, d);
    if q' < q {
      MulMonotone(d, q' + 1, q);
    } else if q' > q {
      MulMonotone(d, q + 1, q');
    }
  }

  lemma MulMonotone(d: int, a: int, b: int)
    requires d > 0 && a <= b
    ensures d * a <= d * b
  {
    assert d * b - d * a == d * (b - a);
  }

  /** `|p * a| <= p * b` for `p >= 0` and `|a| <= b`. */
  lemma MulBound(p: int, a: int, b: int)
    requires p >= 0 && -b <= a <= b
    ensures -(p * b) <= p * a <= p * b
  {
    if p > 0 {
      MulMonotone(p, a, b);
      MulMonotone(p, -b, a);
    }
  }

  /** Sign rule for products. */
  lemma MulSign(a: int, b: int)
    ensures a >= 0 && b >= 0 ==> a * b >= 0
    ensures a <= 0 && b >= 0 ==> a * b <= 0
    ensures a >= 0 && b <= 0 ==> a * b <= 0
    ensures a <= 0 && b <= 0 ==> a * b >= 0
  {
  }

  lemma {:induction false} RoundDivUnique(n: int, d: int, q: int)
    requires d > 0
    requires d * (2 * q - 1) <= 2 * n < d * (2 * q + 1)
    ensures RoundDiv(n, d) == q
  {
    assert 2 * d * q <= 2 * n + d < 2 * d * q + 2 * d;
    DivUnique(2 * n + d, 2 * d, q);
  }

  /** `Math.round` is monotone. */
  lemma {:induction false} RoundDivMonotone(a: int, b: int, d: int)
    requires d > 0 && a <= b
    ensures RoundDiv(a, d) <= RoundDiv(b, d)
  {
    var qa, qb := RoundDiv(a, d), RoundDiv(b, d);
    if qa > qb {
      MulMonotone(d, 2 * qb + 1, 2 * qa - 1);
    }
  }

  lemma {:induction false} DivMonotone(a: int, b: int, d: int)
    requires d > 0 && 0 <= a <= b
    ensures a / d <= b / d
  {
    DivBounds(a, d);
    DivBounds(b, d);
    if a / d > b / d {
      MulMonotone(d, b / d + 1, a / d);
    }
  }

  /** Truncation by a positive divisor is floor division of the magnitude,
      carrying the sign of the dividend. */
  lemma TruncByPositive(n: int, d: int)
    requires d > 0
    ensures n >= 0 ==> Trunc(n, d) == n / d && n / d >= 0
    ensures n < 0 ==> Trunc(n, d) == -((-n) / d) && (-n) / d >= 0
  {
    var q := Abs(n) / d;
    DivBounds(Abs(n), d);
    if q < 0 {
      MulMonotone(d, q, -1);
    }
  }

  /** Truncation by a positive divisor is monotone. */
  lemma {:induction false} TruncMonotone(a: int, b: int, d: int)
    requires d > 0 && a <= b
    ensures Trunc(a, d) <= Trunc(b, d)
  {
    TruncByPositive(a, d);
    TruncByPositive(b, d);
    if a >= 0 {
      DivMonotone(a, b, d);
    } else if b < 0 {
      DivMonotone(-b, -a, d);
    }
  }

  /** A quotient and remainder of the same sign, with the remainder smaller
      than the divisor, are what truncating division recovers. */
  lemma {:induction false} TruncUnique(k: int, d: int, t: int)
    requires d > 0
    requires Abs(t) < d
    requires (k >= 0 && t >= 0) || (k <= 0 && t <= 0)
    ensures Trunc(k * d + t, d) == k
  {
    var a, b := Abs(k), Abs(t);
    var m := a * d + b;
    MulMonotone(d, 0, a);
    assert d * a == a * d;
    DivUnique(m, d, a);
    if k < 0 {
      assert k * d + t == -m;
    }
  }

  /** `TruncUnique` for a dividend given by name. */
  lemma TruncOf(n: int, k: int, d: int, t: int)
    requires d > 0 && n == k * d + t
    requires Abs(t) < d
    requires (k >= 0 && t >= 0) || (k <= 0 && t <= 0)
    ensures Trunc(n, d) == k
  {
    TruncUnique(k, d, t);
  }

  /** Scaling numerator and denominator leaves `Math.round` unchanged. */
  lemma {:induction false} RoundDivScale(n: int, d: int, c: int)
    requires d > 0 && c > 0
    ensures RoundDiv(n * c, d * c) == RoundDiv(n, d)
  {
    var q := RoundDiv(n, d);
    assert d * c * (2 * q - 1) == c * (d * (2 * q - 1));
    assert d * c * (2 * q + 1) == c * (d * (2 * q + 1));
    MulMonotone(c, d * (2 * q - 1), 2 * n);
    MulMonotone(c, 2 * n + 1, d * (2 * q + 1));
    RoundDivUnique(n * c, d * c, q);
  }

  /** Adding `j` whole units of the divisor to the numerator adds `j` to
      `Math.round`. */
  lemma {:induction false} RoundDivShift(n: int, d: int, j: int)
    requires d > 0
    ensures RoundDiv(n + d * j, d) == RoundDiv(n, d) + j
  {
    var q := RoundDiv(n, d);
    assert d * (2 * (q + j) - 1) == d * (2 * q - 1) + 2 * (d * j);
    assert d * (2 * (q + j) + 1) == d * (2 * q + 1) + 2 * (d * j);
    RoundDivUnique(n + d * j, d, q + j);
  }

  /** Scaling numerator and divisor leaves truncation unchanged. */
  lemma {:induction false} TruncScale(n: int, d: int, c: int)
    requires d > 0 && c > 0
    ensures Trunc(n * c, d * c) == Trunc(n, d)
  {
    var q := Trunc(n, d);
    var t := n - q * d;
    TruncRemainder(n, d);
    ScaleSplit(n, d, c, q);
    ScaleRemainder(t, d, c);
    TruncUnique(q, d * c, t * c);
  }

  lemma MulCommute(k: int, c: int, w: int)
    ensures k * (c * w) == c * (k * w)
  {
  }

  lemma ScaleSplit(n: int, d: int, c: int, q: int)
    ensures n * c == q * (d * c) + (n - q * d) * c
  {
  }

  lemma ScaleRemainder(t: int, d: int, c: int)
    requires Abs(t) < d && c > 0
    ensures Abs(t * c) < d * c
    ensures t >= 0 ==> t * c >= 0
    ensures t <= 0 ==> t * c <= 0
  {
    MulMonotone(c, Abs(t) + 1, d);
    MulSign(t, c);
    assert Abs(t * c) == Abs(t) * c;
  }

  /** The remainder left by truncating division is smaller than the divisor
      and never of the opposite sign to the quotient. */
  lemma TruncRemainder(n: int, d: int)
    requires d > 0
    ensures Abs(n - Trunc(n, d) * d) < d
    ensures n >= 0 ==> Trunc(n, d) >= 0 && n - Trunc(n, d) * d >= 0
    ensures n <= 0 ==> Trunc(n, d) <= 0 && n - Trunc(n, d) * d <= 0
  {
    var m := Abs(n) / d;
    DivBounds(Abs(n), d);
    assert d * m == m * d;
    if n < 0 {
      assert Trunc(n, d) * d == -(m * d);
    }
  }
}

=== FILE: calculator.dfy ===
/** The `Calculator` of `src/classes/calculator.ts`: every operation lowers
    its operands to scrap at the calculator's exchange rate, computes there,
    and lifts the result back with `fromScrap`. */
module Calculators {
  import opened Results
  import opened Arith
  import Utils
  import opened Currencies

  /** A calculator holds one exchange rate, in hundredths of a refined per
      key. */
  datatype Calculator = Calculator(exchange: int)

  /** The constructor: a missing exchange rate is 0; a negative one is
      rejected with a `RangeError`. */
  function NewCalculator(exchange: Option<int>): (r: Result<Calculator>)
    ensures r.Err? <==> exchange.Some? && exchange.value < 0
    ensures r.Err? ==> r.error == RangeError
    ensures exchange.None? ==> r == Ok(Calculator(0))
    ensures r.Ok? ==> r.value.exchange >= 0 && r.value.exchange == exchange.GetOr(0)
  {
    var rate := exchange.GetOr(0);
    if !(rate >= 0) then Err(RangeError) else Ok(Calculator(rate))
  }

  /** `Currency.fromScrap(s, e)`, wrapped as the successful result every
      operation returns, with the facts the operations rely on. */
  function Lift(s: int, e: int): (r: Result<Currency>)
    ensures r.Ok? && r.value == FromScrap(s, e)
    ensures e >= 0 ==> Normalized(r.value, e) && Worth(r.value, e, s)
  {
    FromScrapRoundTrip(s, e);
    Ok(FromScrap(s, e))
  }

  /** `add`: the result is worth exactly the two operands together. */
  function Add(calculator: Calculator, first: Currency, second: Currency): (r: Result<Currency>)
    ensures r.Err? <==> ToScrap(first, calculator.exchange).Err? || ToScrap(second, calculator.exchange).Err?
    ensures r.Err? ==> r.error == CurrencyError
    ensures r.Ok? && calculator.exchange >= 0 ==> Normalized(r.value, calculator.exchange)
    ensures r.Ok? && calculator.exchange >= 0 ==>
      Worth(r.value, calculator.exchange, ToScrap(first, calculator.exchange).value + ToScrap(second, calculator.exchange).value)
  {
    var a := ToScrap(first, calculator.exchange);
    var b := ToScrap(second, calculator.exchange);
    if a.Err? then Err(a.error)
    else if b.Err? then Err(b.error)
    else Lift(a.value + b.value, calculator.exchange)
  }

  /** `subtract`: the result is worth exactly the difference, and may be
      negative, with keys and refined then both non-positive. */
  function Subtract(calculator: Calculator, minuend: Currency, subtrahend: Currency): (r: Result<Currency>)
    ensures r.Err? <==> ToScrap(minuend, calculator.exchange).Err? || ToScrap(subtrahend, calculator.exchange).Err?
    ensures r.Err? ==> r.error == CurrencyError
    ensures r.Ok? && calculator.exchange >= 0 ==> Normalized(r.value, calculator.exchange)
    ensures r.Ok? && calculator.exchange >= 0 ==>
      Worth(r.value, calculator.exchange, ToScrap(minuend, calculator.exchange).value - ToScrap(subtrahend, calculator.exchange).value)
  {
    var a := ToScrap(minuend, calculator.exchange);
    var b := ToScrap(subtrahend, calculator.exchange);
    if a.Err? then Err(a.error)
    else if b.Err? then Err(b.error)
    else Lift(a.value - b.value, calculator.exchange)
  }

  /** `multiply`: a zero factor is a `RangeError`; otherwise the result is
      worth exactly `factor` times the operand. */
  function Multiply(calculator: Calculator, currency: Currency, factor: int): (r: Result<Currency>)
    ensures factor == 0 ==> r == Err(RangeError)
    ensures factor != 0 ==> (r.Err? <==> ToScrap(currency, calculator.exchange).Err?)
    ensures factor != 0 && r.Err? ==> r.error == CurrencyError
    ensures r.Ok? && calculator.exchange >= 0 ==> Normalized(r.value, calculator.exchange)
    ensures r.Ok? && calculator.exchange >= 0 ==>
      Worth(r.value, calculator.exchange, ToScrap(currency, calculator.exchange).value * factor)
  {
    if factor == 0 then
      Err(RangeError)
    else
      var s :- ToScrap(currency, calculator.exchange);
      Lift(s * factor, calculator.exchange)
  }

  /** `divide`: a zero divisor is a `RangeError`; otherwise the scrap total
      divided by `divisor` (a fraction of scrap in general) is lifted back.
      Keys and refined keep one sign, and an exact quotient is lifted
      exactly. */
  function Divide(calculator: Calculator, currency: Currency, divisor: int): (r: Result<Currency>)
    ensures divisor == 0 ==> r == Err(RangeError)
    ensures divisor != 0 ==> (r.Err? <==> ToScrap(currency, calculator.exchange).Err?)
    ensures divisor != 0 && r.Err? ==> r.error == CurrencyError
    ensures r.Ok? ==> Utils.OnSignedLattice(r.value.refined)
    ensures r.Ok? && calculator.exchange >= 0 ==> SignConsistent(r.value)
  {
    if divisor == 0 then
      Err(RangeError)
    else
      var s :- ToScrap(currency, calculator.exchange);
      Ok(DivideScrap(s, divisor, calculator.exchange))
  }

  /** `s / divisor` scrap lifted at exchange `e`: the sign moves to the
      numerator so that the denominator is positive. */
  function DivideScrap(s: int, divisor: int, e: int): (c: Currency)
    requires divisor != 0
    ensures Utils.OnSignedLattice(c.refined)
    ensures e >= 0 ==> SignConsistent(c)
  {
    FromScrapRatio(if divisor > 0 then s else -s, Abs(divisor), e)
  }

  /** The scrap total of a list at exchange `e`, added left to right; it
      fails when any element cannot be priced. */
  function SumScrap(cs: seq<Currency>, e: int): (r: Result<int>)
    ensures r.Err? <==> exists i :: 0 <= i < |cs| && ToScrap(cs[i], e).Err?
    ensures r.Err? ==> r.error == CurrencyError
    decreases |cs|
  {
    if |cs| == 0 then
      Ok(0)
    else
      var init := SumScrap(cs[..|cs| - 1], e);
      var last := ToScrap(cs[|cs| - 1], e);
      assert forall i :: 0 <= i < |cs| - 1 ==> cs[..|cs| - 1][i] == cs[i];
      if init.Err? then Err(init.error)
      else if last.Err? then Err(last.error)
      else Ok(init.value + last.value)
  }

  /** `sum`: the scrap totals of all elements, lifted back with the DEFAULT
      exchange rate 0, so the result never holds keys. */
  method Sum(calculator: Calculator, currencies: seq<Currency>) returns (r: Result<Currency>)
    ensures r.Err? <==> exists i :: 0 <= i < |currencies| && ToScrap(currencies[i], calculator.exchange).Err?
    ensures r.Err? ==> r.error == CurrencyError
    ensures r.Ok? ==> r.value.keys == 0
    ensures r.Ok? ==> ToScrap(r.value, 0) == SumScrap(currencies, calculator.exchange)
    ensures r.Ok? ==> r.value == FromScrap(SumScrap(currencies, calculator.exchange).value, 0)
    ensures |currencies| == 0 ==> r == Ok(Zero)
  {
    var total := Total(calculator.exchange, currencies);
    if total.Err? {
      return Err(total.error);
    }
    if |currencies| == 0 {
      FromScrapZero(0);
    }
    r := Lift(total.value, 0);
  }

  /** The `reduce` inside `sum`: the scrap totals added left to right,
      stopping at the first element that cannot be priced. */
  method Total(e: int, currencies: seq<Currency>) returns (r: Result<int>)
    ensures r == SumScrap(currencies, e)
  {
    var total := 0;
    var i := 0;
    while i < |currencies|
      invariant 0 <= i <= |currencies|
      invariant SumScrap(currencies[..i], e) == Ok(total)
    {
      var s := ToScrap(currencies[i], e);
      if s.Err? {
        PrefixError(currencies, e, i);
        return Err(s.error);
      }
      var prefix := currencies[..i + 1];
      assert prefix[..i] == currencies[..i];
      assert prefix[i] == currencies[i];
      total := total + s.value;
      i := i + 1;
    }
    assert currencies[..|currencies|] == currencies;
    r := Ok(total);
  }

  /** An element that cannot be priced makes the whole sum fail. */
  lemma PrefixError(cs: seq<Currency>, e: int, i: int)
    requires 0 <= i < |cs| && ToScrap(cs[i], e).Err?
    ensures SumScrap(cs, e) == Err(CurrencyError)
  {
  }

  /** Zero scrap lifts to the zero value at any non-negative exchange rate. */
  lemma FromScrapZero(e: int)
    requires e >= 0
    ensures FromScrap(0, e) == Zero
  {
  }

  /** Adding is commutative. */
  lemma AddCommutative(calculator: Calculator, a: Currency, b: Currency)
    ensures Add(calculator, a, b) == Add(calculator, b, a)
  {
    var e := calculator.exchange;
    if ToScrap(a, e).Ok? && ToScrap(b, e).Ok? {
      assert ToScrap(a, e).value + ToScrap(b, e).value == ToScrap(b, e).value + ToScrap(a, e).value;
    }
  }

  /** A value minus itself is the zero value. */
  lemma SubtractSelf(calculator: Calculator, a: Currency)
    requires calculator.exchange >= 0
    requires ToScrap(a, calculator.exchange).Ok?
    ensures Subtract(calculator, a, a) == Ok(Zero)
  {
    FromScrapZero(calculator.exchange);
  }

  /** Adding `b` and then subtracting it gives back `a` re-normalised, and a
      normalised `a` exactly. */
  lemma AddThenSubtract(calculator: Calculator, a: Currency, b: Currency)
    requires calculator.exchange >= 0
    requires ToScrap(a, calculator.exchange).Ok? && ToScrap(b, calculator.exchange).Ok?
    ensures Add(calculator, a, b).Ok?
    ensures Subtract(calculator, Add(calculator, a, b).value, b)
      == Ok(FromScrap(ToScrap(a, calculator.exchange).value, calculator.exchange))
    ensures Normalized(a, calculator.exchange) ==> Subtract(calculator, Add(calculator, a, b).value, b) == Ok(a)
  {
    var e := calculator.exchange;
    var s := ToScrap(a, e).value;
    var sum := Add(calculator, a, b);
    assert sum.Ok?;
    var back := Subtract(calculator, sum.value, b);
    assert back.Ok?;
    FromScrapRoundTrip(s, e);
    SameWorth(back.value, FromScrap(s, e), e, s);
    if Normalized(a, e) {
      NormalizedRoundTrip(a, e);
      SameWorth(back.value, a, e, s);
    }
  }

  /** Multiplying by one normalises, and leaves a normalised value alone. */
  lemma MultiplyOne(calculator: Calculator, c: Currency)
    requires calculator.exchange >= 0
    requires ToScrap(c, calculator.exchange).Ok?
    ensures Multiply(calculator, c, 1) == Ok(FromScrap(ToScrap(c, calculator.exchange).value, calculator.exchange))
    ensures Normalized(c, calculator.exchange) ==> Multiply(calculator, c, 1) == Ok(c)
  {
    if Normalized(c, calculator.exchange) {
      NormalizedRoundTrip(c, calculator.exchange);
    }
  }

  /** When the divisor divides the scrap total, `divide` lifts the exact
      quotient, so the result is worth exactly the total over the divisor. */
  lemma {:induction false} DivideExact(calculator: Calculator, c: Currency, divisor: int)
    requires calculator.exchange >= 0 && divisor != 0
    requires ToScrap(c, calculator.exchange).Ok?
    requires ToScrap(c, calculator.exchange).value % divisor == 0
    ensures Divide(calculator, c, divisor) == Ok(FromScrap(ToScrap(c, calculator.exchange).value / divisor, calculator.exchange))
    ensures Worth(Divide(calculator, c, divisor).value, calculator.exchange, ToScrap(c, calculator.exchange).value / divisor)
  {
    var e := calculator.exchange;
    var s := ToScrap(c, e).value;
    var q := s / divisor;
    ExactQuotient(s, divisor);
    DivideScrapExact(s, divisor, q, e);
    FromScrapRoundTrip(q, e);
  }

  /** Whatever the divisor, `divide` is worth the scrap total over the
      divisor to within two thirds of a scrap: scaled back by the divisor,
      the result's worth misses the total by at most two thirds of the
      divisor. */
  lemma {:induction false} DivideNear(calculator: Calculator, c: Currency, divisor: int)
    requires calculator.exchange >= 0 && divisor != 0
    requires ToScrap(c, calculator.exchange).Ok?
    ensures Divide(calculator, c, divisor).Ok?
    ensures ToScrap(Divide(calculator, c, divisor).value, calculator.exchange).Ok?
    ensures 200 * Abs(ToScrap(c, calculator.exchange).value
      - divisor * ToScrap(Divide(calculator, c, divisor).value, calculator.exchange).value) <= 133 * Abs(divisor)
  {
    var e := calculator.exchange;
    var s := ToScrap(c, e).value;
    var num := if divisor > 0 then s else -s;
    var den := Abs(divisor);
    var d := FromScrapRatio(num, den, e);
    assert Divide(calculator, c, divisor) == Ok(d) by {
      DivideUnfold(calculator, c, divisor, s, num, den);
    }
    RatioWorth(s, divisor, num, den, e);
  }

  /** `DivideNear` for the scrap total `s` with the sign moved onto `num`. */
  lemma RatioWorth(s: int, divisor: int, num: int, den: int, e: int)
    requires e >= 0 && divisor != 0
    requires num == (if divisor > 0 then s else -s) && den == Abs(divisor)
    ensures ToScrap(FromScrapRatio(num, den, e), e).Ok?
    ensures 200 * Abs(s - divisor * ToScrap(FromScrapRatio(num, den, e), e).value) <= 133 * den
  {
    var d := FromScrapRatio(num, den, e);
    var w := d.keys * Utils.ToScrap(e) + Utils.ToScrap(d.refined);
    assert ToScrap(d, e) == Ok(w);
    RatioNear(num, den, e);
    SignedScale(s, divisor, num, den, w);
  }

  lemma DivideUnfold(calculator: Calculator, c: Currency, divisor: int, s: int, num: int, den: int)
    requires divisor != 0 && ToScrap(c, calculator.exchange) == Ok(s)
    requires num == (if divisor > 0 then s else -s) && den == Abs(divisor)
    ensures Divide(calculator, c, divisor) == Ok(FromScrapRatio(num, den, calculator.exchange))
  {
  }

  /** Moving the divisor's sign to the numerator leaves the miss unchanged. */
  lemma SignedScale(s: int, divisor: int, num: int, den: int, w: int)
    requires divisor != 0 && num == (if divisor > 0 then s else -s) && den == Abs(divisor)
    ensures Abs(num - den * w) == Abs(s - divisor * w)
  {
  }

  /** Dividing a scrap total by a divisor of it lifts the exact quotient. */
  lemma DivideScrapExact(s: int, d: int, q: int, e: int)
    requires d != 0 && e >= 0 && q * d == s
    ensures DivideScrap(s, d, e) == FromScrap(q, e)
  {
    if d > 0 {
      FromScrapRatioWhole(q, d, e);
    } else {
      NegatedProduct(q, d);
      FromScrapRatioWhole(q, Abs(d), e);
    }
  }

  lemma NegatedProduct(q: int, d: int)
    requires d < 0
    ensures q * Abs(d) == -(q * d)
  {
  }

  /** Dividing exactly and multiplying back by the divisor restores the
      value re-normalised. */
  lemma DivideThenMultiply(calculator: Calculator, c: Currency, divisor: int)
    requires calculator.exchange >= 0 && divisor != 0
    requires ToScrap(c, calculator.exchange).Ok?
    requires ToScrap(c, calculator.exchange).value % divisor == 0
    ensures Divide(calculator, c, divisor).Ok?
    ensures Multiply(calculator, Divide(calculator, c, divisor).value, divisor)
      == Ok(FromScrap(ToScrap(c, calculator.exchange).value, calculator.exchange))
  {
    var s := ToScrap(c, calculator.exchange).value;
    var q := s / divisor;
    DivideExact(calculator, c, divisor);
    var d := Divide(calculator, c, divisor).value;
    assert Worth(d, calculator.exchange, q);
    ExactQuotient(s, divisor);
    assert Multiply(calculator, d, divisor) == Lift(q * divisor, calculator.exchange);
  }

  lemma ExactQuotient(s: int, d: int)
    requires d != 0 && s % d == 0
    ensures (s / d) * d == s
  {
  }
}

=== FILE: currency.dfy ===
/** The `Currency` value of `src/classes/currency.ts`: a number of keys and an
    amount of refined metal, with factories from each single unit, converters
    back to each unit, and add / subtract operations that re-normalise.

    Units: `refined` is in hundredths of a refined (see `Utils`); a reclaimed
    amount is in hundredths of a reclaimed; an exchange rate `e` is in
    hundredths of a refined per key; a fractional key count passed to
    `FromKeys` is in ten-thousandths of a key. The library's in-place update
    of `this` is modelled by returning the new value. */
module Currencies {
  import opened Results
  import opened Arith
  import Utils

  datatype Currency = Currency(keys: int, refined: int)

  const Zero := Currency(0, 0)

  /** Keys and refined never pull in opposite directions. */
  predicate SignConsistent(c: Currency) {
    (c.keys >= 0 && c.refined >= 0) || (c.keys <= 0 && c.refined <= 0)
  }

  /** The shape every `fromScrap` result has at exchange `e`: refined on the
      lattice, of the same sign as keys, and worth less than one key (no keys
      at all when a key is worth no scrap). */
  predicate Normalized(c: Currency, e: int) {
    var perKey := Utils.ToScrap(e);
    && Utils.OnSignedLattice(c.refined)
    && SignConsistent(c)
    && (perKey > 0 ==> Abs(Utils.ToScrap(c.refined)) < perKey)
    && (perKey <= 0 ==> c.keys == 0)
  }

  /** The constructor: missing keys and refined default to 0, and refined is
      snapped onto the lattice. */
  function New(keys: Option<int>, refined: Option<int>): (c: Currency)
    ensures keys.None? ==> c.keys == 0
    ensures keys.Some? ==> c.keys == keys.value
    ensures refined.None? ==> c.refined == 0
    ensures Utils.OnSignedLattice(c.refined)
    ensures Abs(c.refined - refined.GetOr(0)) <= 6
    ensures refined.Some? && Utils.OnSignedLattice(refined.value) ==> c.refined == refined.value
    ensures refined.GetOr(0) >= 0 ==> c.refined >= 0
    ensures refined.GetOr(0) <= 0 ==> c.refined <= 0
  {
    Utils.RoundMetalIdempotent(refined.GetOr(0));
    Currency(keys.GetOr(0), Utils.RoundMetalSigned(refined.GetOr(0)))
  }

  /** `fromScrap` of the (possibly fractional) scrap amount `num / den`, as
      produced by `Calculator.divide`: whole keys are split off by truncation
      and the remainder becomes refined. */
  function FromScrapRatio(num: int, den: int, e: int): (c: Currency)
    requires den > 0
    ensures Utils.OnSignedLattice(c.refined)
    ensures e >= 0 && num >= 0 ==> c.keys >= 0 && c.refined >= 0
    ensures e >= 0 && num <= 0 ==> c.keys <= 0 && c.refined <= 0
    ensures Utils.ToScrap(e) == 0 ==> c.keys == 0
  {
    var exchangeInScrap := Utils.ToScrap(e);
    var perKey := den * exchangeInScrap;
    var keys := Utils.ConvertExchangeToKeys(num, perKey);
    var metal := num - keys * perKey;
    Utils.KeysRemainder(num, perKey);
    MulSign(den, exchangeInScrap);
    assert exchangeInScrap > 0 ==> perKey > 0 by {
      if exchangeInScrap > 0 { MulMonotone(den, 1, exchangeInScrap); }
    }
    New(Some(keys), Some(Utils.ConvertMetal(100 * metal, 9 * den)))
  }

  /** The whole keys `FromScrapRatio` splits off leave less than one key's
      worth of the amount. */
  lemma RatioKeys(num: int, den: int, e: int)
    requires den > 0
    ensures Utils.ToScrap(e) > 0 ==>
      var c := FromScrapRatio(num, den, e);
      Abs(num - c.keys * (den * Utils.ToScrap(e))) < den * Utils.ToScrap(e)
  {
    var exchangeInScrap := Utils.ToScrap(e);
    if exchangeInScrap > 0 {
      MulMonotone(den, 1, exchangeInScrap);
    }
    Utils.KeysRemainder(num, den * exchangeInScrap);
  }

  /** What `FromScrapRatio` returns is worth (keys at `e` plus the refined's
      scrap) within two thirds of a scrap of `num / den`: the keys are
      exact, and the refined is off by at most half a hundredth of a refined
      plus six hundredths from the lattice snap, plus the eighth of a
      hundredth that separates a lattice point from its scrap count. */
  lemma {:induction false} RatioNear(num: int, den: int, e: int)
    requires den > 0
    ensures var c := FromScrapRatio(num, den, e);
      200 * Abs(num - den * (c.keys * Utils.ToScrap(e) + Utils.ToScrap(c.refined))) <= 133 * den
  {
    var p := Utils.ToScrap(e);
    var perKey := den * p;
    var keys := Utils.ConvertExchangeToKeys(num, perKey);
    var metal := num - keys * perKey;
    var h := Utils.ConvertMetal(100 * metal, 9 * den);
    var c := FromScrapRatio(num, den, e);
    assert c == Currency(keys, h) by {
      Utils.RoundMetalIdempotent(h);
    }
    var t := Utils.ToScrap(h);
    assert -8 <= 100 * t - 9 * h <= 8 by {
      Utils.LatticeRoundTrip(h);
    }
    MetalNear(metal, den, h, t);
    var w := keys * p + t;
    ScaledSum(den, keys, p, t, perKey, w);
    assert c.keys * p + Utils.ToScrap(c.refined) == w;
  }

  lemma ScaledSum(den: int, keys: int, p: int, t: int, perKey: int, w: int)
    requires perKey == den * p && w == keys * p + t
    ensures den * w == keys * perKey + den * t
  {
    MulCommute(keys, den, p);
  }

  /** `FromScrapRatio` need not be normalised: 563.5 scrap at 62.66 refined
      a key (564 scrap) has no whole key, and the 62.61 refined left over
      snaps up to 62.66, a full key's worth of refined. */
  lemma RatioUnnormalised()
    ensures FromScrapRatio(1127, 2, 6266) == Currency(0, 6266)
    ensures !Normalized(Currency(0, 6266), 6266)
  {
    assert Utils.ToScrap(6266) == 564 by {
      Utils.LatticeToScrap(62, 6);
    }
    assert Utils.ConvertMetal(112700, 18) == 6266 by {
      RoundDivUnique(112700, 18, 6261);
      RoundDivUnique(61, 11, 6);
    }
    Utils.RoundMetalIdempotent(6266);
  }

  /** The arithmetic of `RatioNear`: a refined within thirteen halves of a
      hundredth per ninth of `den` of `metal` scrap, and within an eighth of
      a hundredth of `t` scrap, leaves `t` within two thirds of `metal / den`. */
  lemma MetalNear(metal: int, den: int, h: int, t: int)
    requires den > 0
    requires -13 * (9 * den) <= 2 * (100 * metal - 9 * den * h) <= 13 * (9 * den)
    requires -8 <= 100 * t - 9 * h <= 8
    ensures 200 * Abs(metal - den * t) <= 133 * den
  {
    MulBound(den, 100 * t - 9 * h, 8);
    assert den * (100 * t - 9 * h) == 100 * (den * t) - 9 * den * h;
  }

  /** `fromScrap` of a whole number of scrap. The keys are the whole keys the
      scrap is worth and the refined is worth exactly the scrap left over,
      so keys and refined together are worth exactly `s`. */
  function FromScrap(s: int, e: int): (c: Currency)
    ensures c.refined == Utils.RefinedOfScrap(s - c.keys * Utils.ToScrap(e))
    ensures e >= 0 ==> Normalized(c, e)
    ensures e >= 0 && s >= 0 ==> c.keys >= 0 && c.refined >= 0
    ensures e >= 0 && s <= 0 ==> c.keys <= 0 && c.refined <= 0
    ensures Utils.ToScrap(e) == 0 ==> c.keys == 0 && c.refined == Utils.RefinedOfScrap(s)
    ensures Utils.ToScrap(e) > 0 ==> c.keys * Utils.ToScrap(e) + Utils.ToScrap(c.refined) == s
  {
    var c := FromScrapRatio(s, 1, e);
    WholeRemainder(s, e);
    WholeSplit(s, e);
    c
  }

  /** With a whole amount the remainder after the keys is converted to the
      lattice point worth exactly that much scrap. */
  lemma WholeRemainder(s: int, e: int)
    ensures var c := FromScrapRatio(s, 1, e);
      c.refined == Utils.RefinedOfScrap(s - c.keys * Utils.ToScrap(e))
  {
    var c := FromScrapRatio(s, 1, e);
    var perKey := Utils.ToScrap(e);
    var metal := s - c.keys * perKey;
    Utils.ConvertScrap(metal);
    Utils.RoundMetalIdempotent(Utils.RefinedOfScrap(metal));
  }

  /** With a whole amount the keys and the remainder add up to the amount,
      the remainder worth less than a key. */
  lemma WholeSplit(s: int, e: int)
    ensures var c := FromScrapRatio(s, 1, e);
      Utils.ToScrap(e) > 0 ==> c.keys * Utils.ToScrap(e) + Utils.ToScrap(c.refined) == s
    ensures var c := FromScrapRatio(s, 1, e);
      Utils.ToScrap(e) > 0 ==> Abs(Utils.ToScrap(c.refined)) < Utils.ToScrap(e)
  {
    var c := FromScrapRatio(s, 1, e);
    var metal := s - c.keys * Utils.ToScrap(e);
    RatioKeys(s, 1, e);
    // `RatioKeys` prices a key at `1 * ToScrap(e)`, the per-key scrap of a
    // ratio with denominator 1.
    assert 1 * Utils.ToScrap(e) == Utils.ToScrap(e);
    WholeRemainder(s, e);
    Utils.ScrapRoundTrip(metal);
  }

  /** `fromReclaimed`: like `fromScrap`, with the exchange rate and the
      remainder counted in reclaimed (three to a refined). */
  function FromReclaimed(r: int, e: int): (c: Currency)
    ensures Utils.OnSignedLattice(c.refined)
    ensures e >= 0 && r >= 0 ==> c.keys >= 0 && c.refined >= 0
    ensures e >= 0 && r <= 0 ==> c.keys <= 0 && c.refined <= 0
  {
    var exchangeInReclaimed := Utils.ToReclaimed(e);
    var keys := Utils.ConvertExchangeToKeys(r, exchangeInReclaimed);
    Utils.KeysRemainder(r, exchangeInReclaimed);
    var metal := r - keys * exchangeInReclaimed;
    assert e >= 0 && r >= 0 ==> keys >= 0 && metal >= 0;
    assert e >= 0 && r <= 0 ==> keys <= 0 && metal <= 0;
    New(Some(keys), Some(Utils.ConvertMetal(metal, 3)))
  }

  /** `fromRefined` as written: the rate is rounded with the floor-based
      `roundMetal`, the whole keys and the remainder are computed in decimal
      refined, `refined - keys * exchange`, and only the remainder is
      snapped to the lattice. */
  function FromRefined(h: int, e: int): (c: Currency)
    ensures Utils.OnSignedLattice(c.refined)
    ensures e >= 0 && h >= 0 ==> c.keys >= 0 && c.refined >= 0
    ensures e >= 0 && h <= 0 ==> c.keys <= 0 && c.refined <= 0
  {
    var exchangeInRefined := Utils.RoundMetal(e);
    Utils.RoundedRate(e);
    var keys := Utils.ConvertExchangeToKeys(h, exchangeInRefined);
    Utils.KeysRemainder(h, exchangeInRefined);
    var metal := h - keys * exchangeInRefined;
    assert e >= 0 && h >= 0 ==> keys >= 0 && metal >= 0;
    assert e >= 0 && h <= 0 ==> keys <= 0 && metal <= 0;
    New(Some(keys), Some(Utils.ConvertMetal(metal, 1)))
  }

  /** What `fromRefined` computes at an exchange rate on the lattice: whole
      keys leaving a decimal remainder of the amount's sign worth less than
      one key, and that remainder moved by at most six hundredths onto the
      lattice. */
  lemma FromRefinedSplit(h: int, e: int)
    requires e > 0 && Utils.OnSignedLattice(e)
    ensures var c := FromRefined(h, e);
      && (h >= 0 ==> 0 <= h - c.keys * e < e)
      && (h <= 0 ==> -e < h - c.keys * e <= 0)
      && Abs(c.refined - (h - c.keys * e)) <= 6
  {
    Utils.RoundMetalIdempotent(e);
    Utils.KeysRemainder(h, e);
    RefinedUnfold(h, e);
    Utils.ConvertRefined(h - FromRefined(h, e).keys * e);
  }

  /** `fromRefined` spelled out for a known rounded rate and key count. */
  lemma FromRefinedUnfold(h: int, e: int, x: int, keys: int, metal: int)
    requires x == Utils.RoundMetal(e) && keys == Utils.ConvertExchangeToKeys(h, x)
    requires metal == h - keys * x
    ensures FromRefined(h, e) == New(Some(keys), Some(Utils.ConvertMetal(metal, 1)))
  {
  }

  /** `fromRefined` spelled out: the refined is the decimal remainder
      snapped onto the lattice. */
  lemma RefinedUnfold(h: int, e: int)
    ensures var c := FromRefined(h, e);
      c.refined == Utils.RoundMetalSigned(h - c.keys * Utils.RoundMetal(e))
  {
    var exchangeInRefined := Utils.RoundMetal(e);
    var keys := Utils.ConvertExchangeToKeys(h, exchangeInRefined);
    var metal := h - keys * exchangeInRefined;
    var r := Utils.RoundMetalSigned(metal);
    assert Utils.ConvertMetal(metal, 1) == r by {
      RoundDivUnique(metal, 1, metal);
    }
    assert Utils.RoundMetalSigned(r) == r by {
      Utils.RoundMetalIdempotent(metal);
    }
    assert FromRefined(h, e) == Currency(keys, r);
  }

  /** `fromReclaimed` keeps as many whole keys as fit in the amount, and none
      when a key is worth nothing in reclaimed. */
  lemma FromReclaimedKeys(r: int, e: int)
    ensures var c := FromReclaimed(r, e);
      Utils.ToReclaimed(e) == 0 ==> c.keys == 0
    ensures var c := FromReclaimed(r, e);
      Utils.ToReclaimed(e) > 0 ==> Abs(r - c.keys * Utils.ToReclaimed(e)) < Utils.ToReclaimed(e)
  {
    Utils.KeysRemainder(r, Utils.ToReclaimed(e));
  }

  /** The whole keys `fromRefined` splits off: none without an exchange
      rate, otherwise less than one key's worth is left over. */
  lemma FromRefinedKeys(h: int, e: int)
    ensures var c := FromRefined(h, e);
      Utils.RoundMetal(e) == 0 ==> c.keys == 0
    ensures var c := FromRefined(h, e);
      Utils.RoundMetal(e) > 0 ==> Abs(h - c.keys * Utils.RoundMetal(e)) < Utils.RoundMetal(e)
  {
    Utils.KeysRemainder(h, Utils.RoundMetal(e));
  }

  /** `fromRefined` as evidently intended: the amount is lowered to scrap
      first, so keys and remainder are split on the lattice and the result
      is worth exactly the scrap the amount is worth. */
  function FromRefinedExact(h: int, e: int): (c: Currency)
    ensures e >= 0 ==> Normalized(c, e)
    ensures e >= 0 ==> Worth(c, e, Utils.ToScrap(h))
  {
    FromScrapRoundTrip(Utils.ToScrap(h), e);
    FromScrap(Utils.ToScrap(h), e)
  }

  /** `fromKeys`: the whole keys are `value` truncated towards zero; the
      fractional key, priced at the exchange rate and rounded to whole scrap,
      becomes refined. A positive fraction without an exchange rate fails. */
  function FromKeys(v: int, e: int): (r: Result<Currency>)
    ensures r.Err? <==> v > 0 && v % 10000 != 0 && e <= 0
    ensures r.Err? ==> r.error == CurrencyError
    ensures r.Ok? ==> (v >= 0 ==> 0 <= v - r.value.keys * 10000 < 10000)
    ensures r.Ok? ==> (v <= 0 ==> -10000 < v - r.value.keys * 10000 <= 0)
    ensures r.Ok? ==> (v >= 0 ==> r.value.keys >= 0) && (v <= 0 ==> r.value.keys <= 0)
    ensures r.Ok? ==> Utils.OnSignedLattice(r.value.refined)
    ensures r.Ok? && e >= 0 ==> SignConsistent(r.value)
  {
    var keys := Utils.RoundBySign(v, 10000);
    var refinedInKeys := v - keys * 10000;
    PositiveFraction(v);
    if Utils.MissingExchange(refinedInKeys, e) then
      Err(CurrencyError)
    else
      Ok(PriceFraction(keys, refinedInKeys, e))
  }

  /** The tail of `fromKeys`: a fraction of a key, in ten-thousandths, priced
      at the exchange rate in scrap (`Math.round`) and turned into refined. */
  function PriceFraction(keys: int, fraction: int, e: int): (c: Currency)
    ensures c.keys == keys
    ensures Utils.OnSignedLattice(c.refined)
    ensures e >= 0 && fraction >= 0 ==> c.refined >= 0
    ensures e >= 0 && fraction <= 0 ==> c.refined <= 0
  {
    var exchangeInScrap := Utils.ToScrap(e);
    var n := fraction * exchangeInScrap;
    var scrap := RoundDiv(n, 10000);
    MulSign(fraction, exchangeInScrap);
    assert n >= 0 ==> scrap >= 0;
    assert n <= 0 ==> scrap <= 0;
    Utils.ConvertScrap(scrap);
    New(Some(keys), Some(Utils.ConvertMetal(100 * scrap, 9)))
  }

  /** The refined `PriceFraction` produces is worth the fraction of a key
      priced at the exchange rate, rounded to the nearest scrap. */
  lemma FractionPrice(keys: int, fraction: int, e: int)
    ensures var scrap := Utils.ToScrap(PriceFraction(keys, fraction, e).refined);
      10000 * (2 * scrap - 1) <= 2 * fraction * Utils.ToScrap(e) < 10000 * (2 * scrap + 1)
  {
    var exchangeInScrap := Utils.ToScrap(e);
    var n := fraction * exchangeInScrap;
    var scrap := RoundDiv(n, 10000);
    assert 2 * fraction * exchangeInScrap == 2 * n;
    Utils.ConvertScrap(scrap);
    Utils.ScrapRoundTrip(scrap);
    Utils.RoundMetalIdempotent(Utils.RefinedOfScrap(scrap));
  }

  /** `fromKeys` prices the fractional key to the nearest scrap. */
  lemma FromKeysPrice(v: int, e: int)
    ensures var r := FromKeys(v, e);
      r.Ok? ==>
        var scrap := Utils.ToScrap(r.value.refined);
        10000 * (2 * scrap - 1) <= 2 * (v - r.value.keys * 10000) * Utils.ToScrap(e) < 10000 * (2 * scrap + 1)
  {
    var keys := Utils.RoundBySign(v, 10000);
    var fraction := v - keys * 10000;
    if !Utils.MissingExchange(fraction, e) {
      FromKeysUnfold(v, e, keys, fraction);
      FractionPrice(keys, fraction, e);
    }
  }

  /** `toScrap`: the scrap total, each key priced at the exchange rate
      converted to scrap. Keys cannot be priced without an exchange rate.
      (The three-argument `toScrap` helper it calls is reconstructed.) */
  function ToScrap(c: Currency, e: int): (r: Result<int>)
    ensures r.Err? <==> c.keys != 0 && e <= 0
    ensures r.Err? ==> r.error == CurrencyError
    ensures r.Ok? && c.keys == 0 && Utils.OnSignedLattice(c.refined) ==>
      Utils.RefinedOfScrap(r.value) == c.refined
    ensures r.Ok? && e >= 0 && SignConsistent(c) ==>
      (c.keys >= 0 && c.refined >= 0 ==> r.value >= 0) && (c.keys <= 0 && c.refined <= 0 ==> r.value <= 0)
  {
    if c.keys != 0 && e <= 0 then
      Err(CurrencyError)
    else
      var perKey := Utils.ToScrap(e);
      var metal := Utils.ToScrap(c.refined);
      assert Utils.OnSignedLattice(c.refined) ==> Utils.RefinedOfScrap(metal) == c.refined by {
        if Utils.OnSignedLattice(c.refined) { Utils.LatticeRoundTrip(c.refined); }
      }
      MulSign(c.keys, perKey);
      Ok(c.keys * perKey + metal)
  }

  /** `c` is worth exactly `s` scrap at exchange `e`. */
  predicate Worth(c: Currency, e: int, s: int) {
    ToScrap(c, e).Ok? && ToScrap(c, e).value == s
  }

  /** `toReclaimed`: the scrap total over three, in hundredths of a
      reclaimed rounded to the nearest. (Its helper is reconstructed.) */
  function ToReclaimed(c: Currency, e: int): (r: Result<int>)
    ensures r.Err? <==> c.keys != 0 && e <= 0
    ensures r.Err? ==> r.error == CurrencyError
    ensures r.Ok? ==> ToScrap(c, e).Ok?
    ensures r.Ok? ==> 3 * (2 * r.value - 1) <= 200 * ToScrap(c, e).value < 3 * (2 * r.value + 1)
  {
    var s :- ToScrap(c, e);
    Ok(RoundDiv(100 * s, 3))
  }

  /** `toRefined`: the refined amount worth exactly the scrap total, on the
      lattice. (Its helper is reconstructed.) */
  function ToRefined(c: Currency, e: int): (r: Result<int>)
    ensures r.Err? <==> c.keys != 0 && e <= 0
    ensures r.Err? ==> r.error == CurrencyError
    ensures r.Ok? ==> ToScrap(c, e).Ok? && r.value == Utils.RefinedOfScrap(ToScrap(c, e).value)
    ensures r.Ok? ==> Utils.ToScrap(r.value) == ToScrap(c, e).value
  {
    var s :- ToScrap(c, e);
    Utils.ConvertScrap(s);
    Utils.ScrapRoundTrip(s);
    Ok(Utils.ConvertMetal(100 * s, 9))
  }

  /** The `toKeys` helper at `p` decimals, in units of `10^-p` keys: the keys
      plus the refined priced in keys and rounded to `p` decimals. Refined
      cannot be priced without an exchange rate; no refined needs none.
      (The helper is reconstructed.) */
  function ToKeysAt(c: Currency, e: int, p: nat): (r: Result<int>)
    ensures r.Err? <==> c.refined != 0 && e <= 0
    ensures r.Err? ==> r.error == CurrencyError
  {
    if c.refined != 0 && e <= 0 then
      Err(CurrencyError)
    else if c.refined == 0 then
      Ok(c.keys * Pow10(p))
    else
      Ok(c.keys * Pow10(p) + Utils.RoundFloat(c.refined, e, p))
  }

  /** What `toKeys` at precision `p` yields: the keys exactly, and the
      refined priced at the exchange rate rounded to the nearest unit. */
  lemma ToKeysAtValue(c: Currency, e: int, p: nat)
    ensures var r := ToKeysAt(c, e, p);
      r.Ok? && c.refined == 0 ==> r.value == c.keys * Pow10(p)
    ensures var r := ToKeysAt(c, e, p);
      r.Ok? && c.refined != 0 ==>
        var f := r.value - c.keys * Pow10(p);
        e * (2 * f - 1) <= 2 * c.refined * Pow10(p) < e * (2 * f + 1)
  {
  }

  /** `toKeys`: the value in keys to two decimals (hundredths of a key). */
  function ToKeys(c: Currency, e: int): (r: Result<int>)
    ensures r.Err? <==> c.refined != 0 && e <= 0
    ensures r.Err? ==> r.error == CurrencyError
  {
    ToKeysAt(c, e, 2)
  }

  /** `toKeys` is exact on keys and rounds the refined, priced in keys, to
      the nearest hundredth. */
  lemma ToKeysValue(c: Currency, e: int)
    ensures var r := ToKeys(c, e);
      r.Ok? && c.refined == 0 ==> r.value == 100 * c.keys
    ensures var r := ToKeys(c, e);
      r.Ok? && c.refined != 0 ==>
        var f := r.value - 100 * c.keys;
        e * (2 * f - 1) <= 200 * c.refined < e * (2 * f + 1)
  {
    Pow10Values();
    ToKeysAtValue(c, e, 2);
  }

  /** `addScrap`: the value plus `a` scrap, re-normalised. */
  function AddScrap(c: Currency, a: int, e: int): (r: Result<Currency>)
    ensures r.Err? <==> c.keys != 0 && e <= 0
    ensures r.Err? ==> r.error == CurrencyError
    ensures r.Ok? && e >= 0 ==> Normalized(r.value, e)
    ensures r.Ok? && e >= 0 ==> Worth(r.value, e, ToScrap(c, e).value + a)
  {
    var total := ToScrap(c, e);
    if total.Err? then Err(total.error)
    else
      FromScrapRoundTrip(total.value + a, e);
      Ok(FromScrap(total.value + a, e))
  }

  /** `subtractScrap` is `addScrap` of the negated amount. */
  function SubtractScrap(c: Currency, a: int, e: int): (r: Result<Currency>)
    ensures r.Err? <==> c.keys != 0 && e <= 0
    ensures r.Ok? && e >= 0 ==> Normalized(r.value, e)
    ensures r.Ok? && e >= 0 ==> Worth(r.value, e, ToScrap(c, e).value - a)
  {
    AddScrap(c, -a, e)
  }

  /** `addReclaimed`: the value plus `r` hundredths of a reclaimed, lowered
      to reclaimed and lifted back with `fromReclaimed`. */
  function AddReclaimed(c: Currency, r: int, e: int): (res: Result<Currency>)
    ensures res.Err? <==> c.keys != 0 && e <= 0
    ensures res.Err? ==> res.error == CurrencyError
    ensures res.Ok? ==> Utils.OnSignedLattice(res.value.refined)
    ensures res.Ok? && e >= 0 && ToReclaimed(c, e).value + r >= 0 ==>
      res.value.keys >= 0 && res.value.refined >= 0
    ensures res.Ok? && e >= 0 && ToReclaimed(c, e).value + r <= 0 ==>
      res.value.keys <= 0 && res.value.refined <= 0
  {
    var total := ToReclaimed(c, e);
    if total.Err? then Err(total.error)
    else Ok(FromReclaimed(total.value + r, e))
  }

  /** `subtractReclaimed` is `addReclaimed` of the negated amount. */
  function SubtractReclaimed(c: Currency, r: int, e: int): (res: Result<Currency>)
    ensures res.Err? <==> c.keys != 0 && e <= 0
    ensures res.Ok? ==> Utils.OnSignedLattice(res.value.refined)
  {
    AddReclaimed(c, -r, e)
  }

  /** `addReclaimed` as evidently intended: the reclaimed total is lowered
      to the nearest scrap before it is lifted, so the result is normalised
      and adding whole reclaimed adds exactly three scrap each. */
  function AddReclaimedExact(c: Currency, r: int, e: int): (res: Result<Currency>)
    ensures res.Err? <==> c.keys != 0 && e <= 0
    ensures res.Err? ==> res.error == CurrencyError
    ensures res.Ok? && e >= 0 ==> Normalized(res.value, e)
    ensures res.Ok? && e >= 0 && r % 100 == 0 ==>
      Worth(res.value, e, ToScrap(c, e).value + 3 * (r / 100))
  {
    var total := ToReclaimed(c, e);
    if total.Err? then Err(total.error)
    else
      var scrap := RoundDiv(3 * (total.value + r), 100);
      assert r % 100 == 0 ==> scrap == ToScrap(c, e).value + 3 * (r / 100) by {
        if r % 100 == 0 {
          ReclaimedToScrap(ToScrap(c, e).value, total.value, r / 100);
        }
      }
      FromScrapRoundTrip(scrap, e);
      Ok(FromScrap(scrap, e))
  }

  /** A scrap total in reclaimed, rounded to hundredths, plus `j` whole
      reclaimed rounds back to the total plus `3 * j` scrap. */
  lemma ReclaimedToScrap(s: int, x: int, j: int)
    requires 3 * (2 * x - 1) <= 200 * s < 3 * (2 * x + 1)
    ensures RoundDiv(3 * (x + 100 * j), 100) == s + 3 * j
  {
    RoundDivUnique(3 * x, 100, s);
    RoundDivShift(3 * x, 100, 3 * j);
  }

  /** `addRefined` as written: the value lowered to refined, plus `h`
      hundredths of a refined, lifted back with the as-written `fromRefined`.
      Its decimal split can drift from the scrap total (`AddRefinedDrift`). */
  function AddRefined(c: Currency, h: int, e: int): (r: Result<Currency>)
    ensures r.Err? <==> c.keys != 0 && e <= 0
    ensures r.Err? ==> r.error == CurrencyError
    ensures r.Ok? ==> Utils.OnSignedLattice(r.value.refined)
    ensures r.Ok? && e >= 0 && ToRefined(c, e).value + h >= 0 ==>
      r.value.keys >= 0 && r.value.refined >= 0
    ensures r.Ok? && e >= 0 && ToRefined(c, e).value + h <= 0 ==>
      r.value.keys <= 0 && r.value.refined <= 0
  {
    var total :- ToRefined(c, e);
    Ok(FromRefined(total + h, e))
  }

  /** `subtractRefined` is `addRefined` of the negated amount. */
  function SubtractRefined(c: Currency, h: int, e: int): (r: Result<Currency>)
    ensures r.Err? <==> c.keys != 0 && e <= 0
    ensures r.Ok? ==> Utils.OnSignedLattice(r.value.refined)
    ensures r.Ok? && e >= 0 && ToRefined(c, e).value - h >= 0 ==>
      r.value.keys >= 0 && r.value.refined >= 0
    ensures r.Ok? && e >= 0 && ToRefined(c, e).value - h <= 0 ==>
      r.value.keys <= 0 && r.value.refined <= 0
  {
    AddRefined(c, -h, e)
  }

  /** `addRefined` as evidently intended: lifted back with the corrected
      `FromRefinedExact`, so adding a lattice amount adds exactly its scrap. */
  function AddRefinedExact(c: Currency, h: int, e: int): (r: Result<Currency>)
    ensures r.Err? <==> c.keys != 0 && e <= 0
    ensures r.Err? ==> r.error == CurrencyError
    ensures r.Ok? && e >= 0 ==> Normalized(r.value, e)
    ensures r.Ok? && e >= 0 && Utils.OnSignedLattice(h) ==>
      Worth(r.value, e, ToScrap(c, e).value + Utils.ToScrap(h))
  {
    var total := ToRefined(c, e);
    if total.Err? then Err(total.error)
    else
      assert Utils.OnSignedLattice(h) ==>
        Utils.ToScrap(total.value + h) == ToScrap(c, e).value + Utils.ToScrap(h) by {
        if Utils.OnSignedLattice(h) {
          Utils.LatticeRoundTrip(h);
          Utils.LatticeAdditive(ToScrap(c, e).value, Utils.ToScrap(h));
        }
      }
      Ok(FromRefinedExact(total.value + h, e))
  }

  /** The corrected `subtractRefined`: `AddRefinedExact` of the negated
      amount. */
  function SubtractRefinedExact(c: Currency, h: int, e: int): (r: Result<Currency>)
    ensures r.Err? <==> c.keys != 0 && e <= 0
    ensures r.Ok? && e >= 0 ==> Normalized(r.value, e)
    ensures r.Ok? && e >= 0 && Utils.OnSignedLattice(h) ==>
      Worth(r.value, e, ToScrap(c, e).value - Utils.ToScrap(h))
  {
    Utils.ToScrapNegate(h);
    AddRefinedExact(c, -h, e)
  }

  /** `addKeys`: the value in keys to four decimals plus `k` ten-thousandths
      of a key, lifted back with `fromKeys`. */
  function AddKeys(c: Currency, k: int, e: int): (r: Result<Currency>)
    ensures r.Err? ==> r.error == CurrencyError
    ensures c.refined != 0 && e <= 0 ==> r.Err?
    ensures c.refined == 0 ==> r == FromKeys(10000 * c.keys + k, e)
  {
    WholeKeysValue(c, e);
    match ToKeysAt(c, e, 4)
    case Err(error) => Err(error)
    case Ok(total) => FromKeys(total + k, e)
  }

  /** Without refined, the value in ten-thousandths of a key is the keys'. */
  lemma WholeKeysValue(c: Currency, e: int)
    ensures c.refined == 0 ==> ToKeysAt(c, e, 4) == Ok(10000 * c.keys)
  {
    Pow10Values();
  }

  /** `subtractKeys` is `addKeys` of the negated amount. */
  function SubtractKeys(c: Currency, k: int, e: int): (r: Result<Currency>)
    ensures r.Err? ==> r.error == CurrencyError
    ensures c.refined == 0 ==> r == FromKeys(10000 * c.keys - k, e)
  {
    AddKeys(c, -k, e)
  }

  /** `copy`: a new value built from this one's fields, equal to it whenever
      its refined is on the lattice (as every constructed value's is). */
  function Copy(c: Currency): (r: Currency)
    ensures r.keys == c.keys
    ensures Utils.OnSignedLattice(r.refined)
    ensures Utils.OnSignedLattice(c.refined) ==> r == c
  {
    New(Some(c.keys), Some(c.refined))
  }

  /** The fraction left after truncating a key count is positive exactly
      when the count is positive and not whole. */
  lemma PositiveFraction(v: int)
    ensures var k := Utils.RoundBySign(v, 10000);
      (v - k * 10000 > 0) <==> (v > 0 && v % 10000 != 0)
  {
    var k := Utils.RoundBySign(v, 10000);
    if v > 0 {
      DivUnique(v, 10000, k);
    }
  }

  /** `fromScrap` followed by `toScrap` at the same non-negative exchange
      rate gives back the scrap total: no value is created or lost. */
  lemma FromScrapRoundTrip(s: int, e: int)
    ensures e >= 0 ==> Worth(FromScrap(s, e), e, s)
  {
    if e >= 0 {
      var c := FromScrap(s, e);
      var perKey := Utils.ToScrap(e);
      Utils.ToScrapMonotone(0, e);
      if perKey == 0 {
        Utils.ScrapRoundTrip(s);
        assert Worth(c, e, 0 * perKey + Utils.ToScrap(c.refined));
      } else {
        assert Worth(c, e, c.keys * perKey + Utils.ToScrap(c.refined));
      }
    }
  }

  /** A normalised value survives `toScrap` followed by `fromScrap`
      unchanged: with `FromScrapRoundTrip`, scrap totals and normalised
      values correspond one to one. */
  lemma {:induction false} NormalizedRoundTrip(c: Currency, e: int)
    requires e >= 0 && Normalized(c, e)
    ensures ToScrap(c, e).Ok?
    ensures FromScrap(ToScrap(c, e).value, e) == c
  {
    var perKey := Utils.ToScrap(e);
    var t := Utils.ToScrap(c.refined);
    Utils.LatticeRoundTrip(c.refined);
    Utils.ToScrapMonotone(0, e);
    if perKey == 0 {
      assert c.keys == 0;
    } else {
      assert e != 0;
      assert ToScrap(c, e).value == c.keys * perKey + t;
      FromScrapSplit(ToScrap(c, e).value, e, c.keys, t);
    }
  }

  /** A split of `s` into whole keys and a remainder of the same sign worth
      less than a key is the split `fromScrap` makes. */
  lemma {:induction false} FromScrapSplit(s: int, e: int, k: int, t: int)
    requires e >= 0 && Utils.ToScrap(e) > 0
    requires s == k * Utils.ToScrap(e) + t
    requires Abs(t) < Utils.ToScrap(e)
    requires (k >= 0 && t >= 0) || (k <= 0 && t <= 0)
    ensures FromScrap(s, e) == Currency(k, Utils.RefinedOfScrap(t))
  {
    SplitKeys(s, e, k, t);
    assert s - k * Utils.ToScrap(e) == t;
  }

  lemma {:induction false} SplitKeys(s: int, e: int, k: int, t: int)
    requires e >= 0 && Utils.ToScrap(e) > 0
    requires s == k * Utils.ToScrap(e) + t
    requires Abs(t) < Utils.ToScrap(e)
    requires (k >= 0 && t >= 0) || (k <= 0 && t <= 0)
    ensures FromScrap(s, e).keys == k
  {
    var perKey := Utils.ToScrap(e);
    assert Utils.ConvertExchangeToKeys(s, perKey) == k by {
      TruncOf(s, k, perKey, t);
    }
    assert FromScrap(s, e).keys == Utils.ConvertExchangeToKeys(s, perKey) by {
      ScrapKeys(s, e);
      // `ScrapKeys` prices a key at `1 * perKey`, the per-key scrap of a
      // ratio with denominator 1.
      assert 1 * perKey == perKey;
    }
  }

  /** The keys `fromScrap` keeps are the truncated quotient by a key's worth. */
  lemma ScrapKeys(s: int, e: int)
    ensures FromScrap(s, e).keys == Utils.ConvertExchangeToKeys(s, 1 * Utils.ToScrap(e))
  {
  }

  /** A normalised value worth `s` scrap is what `s` scrap lifts to. */
  lemma Lifts(c: Currency, e: int, s: int)
    requires e >= 0 && Normalized(c, e) && Worth(c, e, s)
    ensures FromScrap(s, e) == c
  {
    NormalizedRoundTrip(c, e);
  }

  /** Two normalised values worth the same scrap are equal. */
  lemma SameWorth(c: Currency, d: Currency, e: int, s: int)
    requires e >= 0 && Normalized(c, e) && Worth(c, e, s)
    requires Normalized(d, e) && Worth(d, e, s)
    ensures c == d
  {
    Lifts(c, e, s);
    Lifts(d, e, s);
  }

  /** Adding and then subtracting the same scrap amount gives back the value
      re-normalised, and a normalised value exactly. */
  lemma AddSubtractScrap(c: Currency, a: int, e: int)
    requires e >= 0
    requires ToScrap(c, e).Ok?
    ensures AddScrap(c, a, e).Ok?
    ensures SubtractScrap(AddScrap(c, a, e).value, a, e) == Ok(FromScrap(ToScrap(c, e).value, e))
    ensures Normalized(c, e) ==> SubtractScrap(AddScrap(c, a, e).value, a, e) == Ok(c)
  {
    var s := ToScrap(c, e).value;
    var added := AddScrap(c, a, e);
    assert added.Ok?;
    var back := SubtractScrap(added.value, a, e);
    assert back.Ok?;
    FromScrapRoundTrip(s, e);
    SameWorth(back.value, FromScrap(s, e), e, s);
    if Normalized(c, e) {
      NormalizedRoundTrip(c, e);
      SameWorth(back.value, c, e, s);
    }
  }

  /** A whole number of keys converts to exactly those keys and no refined,
      whatever the exchange rate. */
  lemma FromKeysWhole(k: int, e: int)
    ensures FromKeys(10000 * k, e) == Ok(Currency(k, 0))
  {
    assert Utils.RoundBySign(10000 * k, 10000) == k by {
      TruncUnique(k, 10000, 0);
    }
    var v := 10000 * k;
    FromKeysUnfold(v, e, k, v - k * 10000);
    PriceNothing(k, e);
  }

  /** `fromKeys` spelled out when it succeeds. */
  lemma FromKeysUnfold(v: int, e: int, keys: int, fraction: int)
    requires keys == Utils.RoundBySign(v, 10000) && fraction == v - keys * 10000
    requires !Utils.MissingExchange(fraction, e)
    ensures FromKeys(v, e) == Ok(PriceFraction(keys, fraction, e))
  {
  }

  /** No fraction of a key prices to no refined. */
  lemma PriceNothing(k: int, e: int)
    ensures PriceFraction(k, 0, e) == Currency(k, 0)
  {
    assert RoundDiv(0 * Utils.ToScrap(e), 10000) == 0 by {
      RoundDivUnique(0, 10000, 0);
    }
    Utils.ConvertScrap(0);
  }

  /** Adding a whole number `j` of keys with `addKeys` adds exactly `j`
      keys' worth of scrap, provided the refined, priced in keys to four
      decimals, still rounds back to its own scrap: the refined is on the
      lattice and at most one key's worth, and a key is worth under 8400
      scrap (beyond that a ten-thousandth of a key is half a scrap or
      more). The result again satisfies those provisos. */
  lemma {:induction false} AddWholeKeys(c: Currency, j: int, e: int)
    requires e > 0 && Utils.OnSignedLattice(e) && Utils.ToScrap(e) < 8400
    requires Utils.OnSignedLattice(c.refined) && Abs(c.refined) <= e
    ensures AddKeys(c, 10000 * j, e).Ok?
    ensures Worth(AddKeys(c, 10000 * j, e).value, e, ToScrap(c, e).value + j * Utils.ToScrap(e))
    ensures Abs(AddKeys(c, 10000 * j, e).value.refined) <= e
  {
    var p := Utils.ToScrap(e);
    var f := Utils.RoundFloat(c.refined, e, 4);
    var s := Utils.ToScrap(c.refined);
    var v := 10000 * c.keys + f + 10000 * j;
    var t := ToScrap(c, e).value + j * p;
    assert AddKeys(c, 10000 * j, e) == FromKeys(v, e) by {
      KeysValue(c, e);
      AddKeysUnfold(c, 10000 * j, e, 10000 * c.keys + f, v);
    }
    var b := c.keys + j;
    assert ToScrap(c, e).value == c.keys * p + s;
    Distribute(b, c.keys, j, p);
    KeysWorthStep(v, e, b, f, s, c.refined, t);
  }

  lemma KeysWorthStep(v: int, e: int, base: int, f: int, s: int, h: int, t: int)
    requires e > 0 && Utils.OnSignedLattice(e) && Utils.ToScrap(e) < 8400
    requires Utils.OnSignedLattice(h) && Abs(h) <= e
    requires f == Utils.RoundFloat(h, e, 4) && s == Utils.ToScrap(h) && v == 10000 * base + f
    requires t == base * Utils.ToScrap(e) + s
    ensures FromKeys(v, e).Ok?
    ensures Worth(FromKeys(v, e).value, e, t)
    ensures Abs(FromKeys(v, e).value.refined) <= e
  {
    RepriceFraction(h, e);
    FromKeysWorth(v, e, base, f, s);
  }

  lemma Distribute(b: int, k: int, j: int, p: int)
    requires b == k + j
    ensures b * p == k * p + j * p
  {
  }

  lemma AddKeysUnfold(c: Currency, k: int, e: int, t: int, v: int)
    requires ToKeysAt(c, e, 4) == Ok(t) && v == t + k
    ensures AddKeys(c, k, e) == FromKeys(v, e)
  {
    Pow10Values();
  }

  /** Subtracting the whole keys just added gives back a value of the same
      worth, under the provisos of `AddWholeKeys`. */
  lemma AddSubtractKeys(c: Currency, j: int, e: int)
    requires e > 0 && Utils.OnSignedLattice(e) && Utils.ToScrap(e) < 8400
    requires Utils.OnSignedLattice(c.refined) && Abs(c.refined) <= e
    ensures AddKeys(c, 10000 * j, e).Ok?
    ensures SubtractKeys(AddKeys(c, 10000 * j, e).value, 10000 * j, e).Ok?
    ensures Worth(SubtractKeys(AddKeys(c, 10000 * j, e).value, 10000 * j, e).value, e, ToScrap(c, e).value)
  {
    var p := Utils.ToScrap(e);
    var s := ToScrap(c, e).value;
    AddWholeKeys(c, j, e);
    var added := AddKeys(c, 10000 * j, e).value;
    SubtractWholeKeys(added, j, e, s + j * p, s);
  }

  /** Taking `j` whole keys off a value worth `t` scrap leaves it worth
      `t` less `j` keys. */
  lemma SubtractWholeKeys(c: Currency, j: int, e: int, t: int, s: int)
    requires e > 0 && Utils.OnSignedLattice(e) && Utils.ToScrap(e) < 8400
    requires Utils.OnSignedLattice(c.refined) && Abs(c.refined) <= e
    requires Worth(c, e, t) && s == t - j * Utils.ToScrap(e)
    ensures SubtractKeys(c, 10000 * j, e).Ok?
    ensures Worth(SubtractKeys(c, 10000 * j, e).value, e, s)
  {
    var p := Utils.ToScrap(e);
    var back := -j;
    assert SubtractKeys(c, 10000 * j, e) == AddKeys(c, 10000 * back, e);
    AddWholeKeys(c, back, e);
    Distribute(0, j, back, p);
  }

  /** `fromKeys` of `base` keys plus a fraction `f` (in ten-thousandths,
      perhaps a key or more) whose price rounds to `s` scrap is worth `base`
      keys and `s` scrap, whatever split of `f` into whole and fractional
      keys it makes. */
  lemma {:induction false} FromKeysWorth(v: int, e: int, base: int, f: int, s: int)
    requires e > 0 && Utils.OnSignedLattice(e)
    requires v == 10000 * base + f && RoundDiv(f * Utils.ToScrap(e), 10000) == s
    ensures FromKeys(v, e).Ok?
    ensures Worth(FromKeys(v, e).value, e, base * Utils.ToScrap(e) + s)
    ensures Abs(FromKeys(v, e).value.refined) <= e
  {
    var p := Utils.ToScrap(e);
    var keys := Utils.RoundBySign(v, 10000);
    var fraction := v - keys * 10000;
    var m := base - keys;
    var scrap := RoundDiv(fraction * p, 10000);
    FromKeysShape(v, e, keys, fraction, scrap);
    assert scrap == s + p * m by {
      assert fraction == f + 10000 * m;
      FractionShift(f, p, m);
    }
    ScrapWorth(keys, scrap, e);
    Regroup(keys, base, p);
    assert Abs(Utils.RefinedOfScrap(scrap)) <= e by {
      Utils.ToScrapMonotone(0, e);
      ScrapOfFraction(fraction, p);
      RefinedWithin(scrap, e);
    }
  }

  lemma FromKeysShape(v: int, e: int, keys: int, fraction: int, scrap: int)
    requires e > 0 && keys == Utils.RoundBySign(v, 10000) && fraction == v - keys * 10000
    requires scrap == RoundDiv(fraction * Utils.ToScrap(e), 10000)
    ensures FromKeys(v, e) == Ok(Currency(keys, Utils.RefinedOfScrap(scrap)))
  {
    assert FromKeys(v, e) == Ok(PriceFraction(keys, fraction, e)) by {
      assert !Utils.MissingExchange(fraction, e);
      FromKeysUnfold(v, e, keys, fraction);
    }
    PriceUnfold(keys, fraction, e);
  }

  /** Keys and a lattice refined worth `scrap` are worth their sum. */
  lemma ScrapWorth(keys: int, scrap: int, e: int)
    requires e > 0
    ensures Worth(Currency(keys, Utils.RefinedOfScrap(scrap)), e, keys * Utils.ToScrap(e) + scrap)
  {
    Utils.ScrapRoundTrip(scrap);
  }

  lemma Regroup(keys: int, base: int, p: int)
    ensures keys * p + p * (base - keys) == base * p
  {
  }

  /** Whole keys added to a fraction of a key add their price exactly. */
  lemma FractionShift(f: int, p: int, m: int)
    ensures RoundDiv((f + 10000 * m) * p, 10000) == RoundDiv(f * p, 10000) + p * m
  {
    assert (f + 10000 * m) * p == f * p + 10000 * (p * m);
    RoundDivShift(f * p, 10000, p * m);
  }

  /** `PriceFraction` spelled out: the refined worth the priced fraction. */
  lemma PriceUnfold(keys: int, fraction: int, e: int)
    ensures PriceFraction(keys, fraction, e)
      == Currency(keys, Utils.RefinedOfScrap(RoundDiv(fraction * Utils.ToScrap(e), 10000)))
  {
    var scrap := RoundDiv(fraction * Utils.ToScrap(e), 10000);
    Utils.ConvertScrap(scrap);
    Utils.RoundMetalIdempotent(Utils.RefinedOfScrap(scrap));
  }

  /** `toKeys` to four decimals with an exchange rate: the keys and the
      refined priced in keys. */
  lemma KeysValue(c: Currency, e: int)
    requires e > 0
    ensures ToKeysAt(c, e, 4) == Ok(10000 * c.keys + Utils.RoundFloat(c.refined, e, 4))
  {
    Pow10Values();
    if c.refined == 0 {
      RoundDivUnique(0 * 10000, e, 0);
    }
  }

  /** Less than a key, priced at `p` scrap a key, rounds to at most `p`. */
  lemma ScrapOfFraction(fraction: int, p: int)
    requires Abs(fraction) < 10000 && p >= 0
    ensures Abs(RoundDiv(fraction * p, 10000)) <= p
  {
    MulBound(p, fraction, 10000);
    assert p * fraction == fraction * p;
  }

  /** At most a key's worth of scrap is at most a key's worth of refined. */
  lemma RefinedWithin(x: int, e: int)
    requires e >= 0 && Utils.OnSignedLattice(e) && Abs(x) <= Utils.ToScrap(e)
    ensures Abs(Utils.RefinedOfScrap(x)) <= e
  {
    Utils.LatticeRoundTrip(e);
    Utils.ToScrapMonotone(0, e);
  }

  /** A refined amount of at most one key on the lattice, priced in keys to
      four decimals and priced back in scrap, is worth its own scrap. */
  lemma {:induction false} RepriceFraction(h: int, e: int)
    requires e > 0 && Utils.OnSignedLattice(e) && Utils.ToScrap(e) < 8400
    requires Utils.OnSignedLattice(h) && Abs(h) <= e
    ensures RoundDiv(Utils.RoundFloat(h, e, 4) * Utils.ToScrap(e), 10000) == Utils.ToScrap(h)
  {
    Pow10Values();
    var f := Utils.RoundFloat(h, e, 4);
    var p := Utils.ToScrap(e);
    var s := Utils.ToScrap(h);
    Utils.ToScrapMonotone(0, e);
    Utils.LatticeRoundTrip(e);
    Utils.LatticeRoundTrip(h);
    assert e * (2 * f - 1) <= 2 * h * 10000 < e * (2 * f + 1);
    RepriceBound(h, e, p, s, f);
    RoundDivUnique(f * p, 10000, s);
  }

  /** The arithmetic behind `RepriceFraction`: with `f` the nearest
      ten-thousandth of `h / e`, `p` a key's scrap (`9 * e / 100` up to 0.08)
      and `s` the scrap of `h` (`9 * h / 100` up to 0.08 towards zero),
      `f * p / 10000` is within `p / 20000 + 0.08` of `s`, which is under
      one half while `p < 8400`. */
  lemma {:induction false} RepriceBound(h: int, e: int, p: int, s: int, f: int)
    requires e > 0 && 0 <= p < 8400 && Abs(h) <= e
    requires e * (2 * f - 1) <= 2 * h * 10000 < e * (2 * f + 1)
    requires 0 <= 100 * p - 9 * e <= 8
    requires (h >= 0 && 0 <= 100 * s - 9 * h <= 8) || (h <= 0 && -8 <= 100 * s - 9 * h <= 0)
    ensures 10000 * (2 * s - 1) <= 2 * (f * p) < 10000 * (2 * s + 1)
  {
    var a := 2 * (e * f) - 20000 * h;
    assert -e <= a <= e by {
      assert e * (2 * f - 1) == 2 * (e * f) - e;
      assert e * (2 * f + 1) == 2 * (e * f) + e;
    }
    var b := 100 * p - 9 * e;
    var c := 100 * s - 9 * h;
    var y := 2 * (f * p) - 20000 * s;
    var x := h * b - e * c;
    assert 100 * (e * y) == 100 * (p * a) + 20000 * x by {
      RepriceIdentity(h, e, p, s, f, a, b, c, y);
    }
    assert -(p * e) <= p * a <= p * e by {
      MulBound(p, a, e);
    }
    assert -8 * e <= x <= 8 * e by {
      CrossBound(h, e, b, c);
    }
    ScaleBack(e, y, p);
  }

  lemma RepriceIdentity(h: int, e: int, p: int, s: int, f: int, a: int, b: int, c: int, y: int)
    requires a == 2 * (e * f) - 20000 * h && b == 100 * p - 9 * e
    requires c == 100 * s - 9 * h && y == 2 * (f * p) - 20000 * s
    ensures 100 * (e * y) == 100 * (p * a) + 20000 * (h * b - e * c)
  {
  }

  lemma CrossBound(h: int, e: int, b: int, c: int)
    requires e > 0 && Abs(h) <= e && 0 <= b <= 8
    requires (h >= 0 && 0 <= c <= 8) || (h <= 0 && -8 <= c <= 0)
    ensures -8 * e <= h * b - e * c <= 8 * e
  {
    MulBound(e, c, 8);
    MulBound(b, h, e);
    MulSign(h, b);
    MulSign(e, c);
    MulMonotone(e, b, 8);
  }

  /** From `100 * |e * y| <= (100 * p + 160000) * e` with `e > 0`,
      `|y| <= p + 1600`. */
  lemma ScaleBack(e: int, y: int, p: int)
    requires e > 0
    requires -(100 * (p * e) + 160000 * e) <= 100 * (e * y) <= 100 * (p * e) + 160000 * e
    ensures -(p + 1600) <= y <= p + 1600
  {
    assert e * (p + 1601) == p * e + 1601 * e;
    assert e * -(p + 1601) == -(p * e) - 1601 * e;
    if y > p + 1600 {
      MulMonotone(e, p + 1601, y);
    }
    if y < -(p + 1600) {
      MulMonotone(e, y, -(p + 1601));
    }
  }

  /** At exchange 0 (keys-free values) going through reclaimed loses nothing:
      `fromReclaimed(toReclaimed())` is `fromScrap(toScrap())`. */
  lemma ReclaimedRoundTrip(c: Currency)
    requires c.keys == 0
    ensures ToReclaimed(c, 0).Ok?
    ensures FromReclaimed(ToReclaimed(c, 0).value, 0) == FromScrap(ToScrap(c, 0).value, 0)
  {
    var s := ToScrap(c, 0).value;
    var x := ToReclaimed(c, 0).value;
    var h := Utils.RefinedOfScrap(s);
    assert x == RoundDiv(100 * s, 3);
    Utils.ConvertReclaimed(s);
    ReclaimedAtZero(x, h);
    ScrapAtZero(s, h);
  }

  /** Without an exchange rate `fromReclaimed` keeps no keys and converts
      the whole amount to refined. */
  lemma ReclaimedAtZero(x: int, h: int)
    requires h == Utils.ConvertMetal(x, 3)
    ensures FromReclaimed(x, 0) == Currency(0, h)
  {
    Utils.ToScrapMonotone(0, 0);
    assert Utils.ToReclaimed(0) == 0;
    assert Utils.ConvertExchangeToKeys(x, 0) == 0;
    assert x - 0 * 0 == x;
    Utils.RoundMetalIdempotent(h);
  }

  /** Without an exchange rate `fromScrap` keeps no keys. */
  lemma ScrapAtZero(s: int, h: int)
    requires h == Utils.RefinedOfScrap(s)
    ensures FromScrap(s, 0) == Currency(0, h)
  {
    Utils.ToScrapMonotone(0, 0);
  }

  /** The as-written `fromRefined` mis-splits when the exchange rate is not
      a whole number of refined: 564 ref at 62.66 ref per key is 5076 scrap,
      exactly nine keys, yet the decimal remainder 564 - 9 * 62.66 = 0.06 is
      rounded up to 0.11, one scrap too many. */
  lemma FromRefinedDrift()
    ensures Utils.ToScrap(56400) == 9 * Utils.ToScrap(6266)
    ensures FromRefined(56400, 6266) == Currency(9, 11)
    ensures FromRefinedExact(56400, 6266) == Currency(9, 0)
  {
    DriftKeys();
    DriftRefined();
    DriftExact();
  }

  lemma DriftKeys()
    ensures FromRefined(56400, 6266).keys == 9
  {
    RefinedKeysExact(56400, 6266, 9, 6);
  }

  lemma DriftRefined()
    ensures FromRefined(56400, 6266).refined == 11
  {
    RefinedRemainder(56400, 6266, 9, 6);
    Utils.SnapNonNegative(6, 0, 1);
  }

  /** An amount of `k` keys at a lattice exchange rate plus a smaller
      non-negative remainder `t` splits into those `k` keys. */
  lemma RefinedKeysExact(h: int, e: int, k: int, t: int)
    requires e > 0 && Utils.OnSignedLattice(e)
    requires k >= 0 && 0 <= t < e && h == k * e + t
    ensures FromRefined(h, e).keys == k
  {
    Utils.RoundMetalIdempotent(e);
    RefinedKeys(h, e);
    TruncUnique(k, e, t);
  }

  /** The same split leaves the remainder `t` rounded onto the lattice. */
  lemma RefinedRemainder(h: int, e: int, k: int, t: int)
    requires e > 0 && Utils.OnSignedLattice(e)
    requires k >= 0 && 0 <= t < e && h == k * e + t
    ensures FromRefined(h, e).refined == Utils.RoundMetalSigned(t)
  {
    RefinedKeysExact(h, e, k, t);
    Utils.RoundMetalIdempotent(e);
    RefinedUnfold(h, e);
    assert h - FromRefined(h, e).keys * Utils.RoundMetal(e) == t;
  }

  lemma RefinedKeys(h: int, e: int)
    ensures FromRefined(h, e).keys == Utils.ConvertExchangeToKeys(h, Utils.RoundMetal(e))
  {
  }

  lemma DriftExact()
    ensures Utils.ToScrap(56400) == 9 * Utils.ToScrap(6266)
    ensures FromRefinedExact(56400, 6266) == Currency(9, 0)
  {
    Utils.LatticeToScrap(564, 0);
    Utils.LatticeToScrap(62, 6);
    FromScrapSplit(5076, 6266, 9, 0);
  }

  /** `addReclaimed` as written can give up normalisation: at 56.22 ref per
      key a key is 168.67 reclaimed rounded up, while 2 keys are 337.33
      reclaimed rounded down, so adding nothing to 2 keys splits off only
      one key and keeps the other as 56.22 ref. The corrected
      `AddReclaimedExact` keeps the 2 keys. */
  lemma ReclaimedDrift()
    ensures Utils.ToReclaimed(5622) == 16867
    ensures ToReclaimed(Currency(2, 0), 5622) == Ok(33733)
    ensures AddReclaimed(Currency(2, 0), 0, 5622) == Ok(Currency(1, 5622))
    ensures !Normalized(Currency(1, 5622), 5622)
    ensures AddReclaimedExact(Currency(2, 0), 0, 5622) == Ok(Currency(2, 0))
  {
    RateInReclaimed();
    ReclaimedDriftAsWritten();
    ReclaimedDriftExact();
  }

  /** As written, 337.33 rec at 168.67 rec a key is 1 key and 168.66 rec,
      which converts to 56.22 ref. */
  lemma ReclaimedDriftAsWritten()
    ensures AddReclaimed(Currency(2, 0), 0, 5622) == Ok(Currency(1, 5622))
  {
    assert ToReclaimed(Currency(2, 0), 5622) == Ok(33733) by {
      RateInReclaimed();
    }
    OneKeyInReclaimed(33733, 5622, 16866);
    AddReclaimedUnfold(Currency(2, 0), 0, 5622, 33733, 33733);
  }

  lemma OneKeyInReclaimed(x: int, e: int, y: int)
    requires x == 33733 && e == 5622 && y == 16866
    ensures FromReclaimed(x, e) == Currency(1, e)
  {
    RateInReclaimed();
    ReclaimedKeys(x, e, 1, y);
    RemainderInRefined(y, e);
  }

  /** 168.66 rec is 56.22 ref, already on the lattice. */
  lemma RemainderInRefined(y: int, e: int)
    requires y == 16866 && e == 5622
    ensures Utils.RoundMetalSigned(Utils.ConvertMetal(y, 3)) == e
  {
    assert RoundDiv(y, 3) == e by {
      RoundDivUnique(y, 3, e);
    }
    Utils.ConvertMetalUnfold(y, 3, e);
    assert Utils.OnSignedLattice(e) by {
      assert Abs(e) % 100 == 22;
    }
    Utils.RoundMetalIdempotent(e);
  }

  lemma AddReclaimedUnfold(c: Currency, r: int, e: int, x: int, y: int)
    requires ToReclaimed(c, e) == Ok(x) && y == x + r
    ensures AddReclaimed(c, r, e) == Ok(FromReclaimed(y, e))
  {
  }

  /** 56.22 ref a key is 506 scrap, 168.67 rec; 2 keys are 1012 scrap,
      337.33 rec. */
  lemma RateInReclaimed()
    ensures Utils.ToScrap(5622) == 506
    ensures ToScrap(Currency(2, 0), 5622) == Ok(1012)
    ensures Utils.ToReclaimed(5622) == 16867
    ensures ToReclaimed(Currency(2, 0), 5622) == Ok(33733)
  {
    assert Utils.ToScrap(5622) == 506 by {
      Utils.LatticeToScrap(56, 2);
    }
    assert ToScrap(Currency(2, 0), 5622) == Ok(1012) by {
      Utils.ToScrapMonotone(0, 0);
    }
    assert Utils.ToReclaimed(5622) == 16867 by {
      RoundDivUnique(50600, 3, 16867);
    }
    assert ToReclaimed(Currency(2, 0), 5622) == Ok(33733) by {
      RoundDivUnique(101200, 3, 33733);
    }
  }

  /** Priced key by key, as `fromReclaimed` prices its keys, 2 keys at
      56.22 are 2 × 168.67 = 337.34 reclaimed, and that amount lifts back to
      the 2 keys: the drift of `ReclaimedDrift` comes from converting the
      scrap total rather than each key. */
  lemma ReclaimedPerKeyPricing()
    ensures Utils.ToReclaimed(5622) == 16867
    ensures FromReclaimed(2 * Utils.ToReclaimed(5622), 5622) == Currency(2, 0)
  {
    RateInReclaimed();
    TwoKeysInReclaimed(33734, 5622);
  }

  lemma TwoKeysInReclaimed(x: int, e: int)
    requires x == 33734 && e == 5622 && Utils.ToReclaimed(e) == 16867
    ensures FromReclaimed(x, e) == Currency(2, 0)
  {
    ReclaimedKeys(x, e, 2, 0);
    assert Utils.ConvertMetal(0, 3) == 0 by {
      Utils.ConvertMetalUnfold(0, 3, 0);
      Utils.RoundMetalIdempotent(0);
    }
    Utils.RoundMetalIdempotent(0);
  }

  /** The one-argument `toReclaimed` reconstructed instead as three times the
      rate: a key at 56.22 is 168.66 rec, so 337.33 rec are 2 keys and 0.01
      rec, which converts to no refined: no drift either. */
  lemma ReclaimedTripleRate(x: int, y: int)
    requires x == 33733 && y == 3 * 5622
    ensures Utils.ConvertExchangeToKeys(x, y) == 2
    ensures x - 2 * y == 1
    ensures Utils.ConvertMetal(x - 2 * y, 3) == 0
  {
    TruncOf(x, 2, y, 1);
    assert Utils.ConvertMetal(1, 3) == 0 by {
      RoundDivUnique(1, 3, 0);
      Utils.ConvertMetalUnfold(1, 3, 0);
      Utils.RoundMetalIdempotent(0);
    }
  }

  /** The corrected `addReclaimed` of nothing keeps 2 keys at 56.22: its
      result is normalised and worth the same 1012 scrap as 2 keys. */
  lemma ReclaimedDriftExact()
    ensures AddReclaimedExact(Currency(2, 0), 0, 5622) == Ok(Currency(2, 0))
  {
    assert Utils.ToScrap(5622) == 506 by {
      Utils.LatticeToScrap(56, 2);
    }
    Utils.ToScrapMonotone(0, 0);
    assert Worth(Currency(2, 0), 5622, 1012);
    assert Normalized(Currency(2, 0), 5622);
    var res := AddReclaimedExact(Currency(2, 0), 0, 5622);
    assert Normalized(res.value, 5622) && Worth(res.value, 5622, 1012);
    SameWorth(res.value, Currency(2, 0), 5622, 1012);
  }

  /** Where a key is a whole number of reclaimed (its scrap a multiple of
      three), `fromReclaimed` of a scrap amount written in reclaimed is
      `fromScrap` of that amount: nothing drifts. */
  lemma {:induction false} ReclaimedOfScrap(x: int, s: int, e: int)
    requires e >= 0 && Utils.ToScrap(e) % 3 == 0
    requires x == RoundDiv(100 * s, 3)
    ensures FromReclaimed(x, e) == FromScrap(s, e)
  {
    Utils.ToScrapMonotone(0, e);
    if Utils.ToScrap(e) == 0 {
      ReclaimedAtZeroRate(s, e);
    } else {
      ReclaimedAtRate(s, e);
    }
  }

  lemma {:induction false} ReclaimedAtRate(s: int, e: int)
    requires e >= 0 && Utils.ToScrap(e) > 0 && Utils.ToScrap(e) % 3 == 0
    ensures FromReclaimed(RoundDiv(100 * s, 3), e) == FromScrap(s, e)
  {
    var perKey := Utils.ToScrap(e);
    var k := FromScrap(s, e).keys;
    var t := s - k * perKey;
    ScrapSplitAtRate(s, e, perKey, k, t);
    ReclaimedSplitAtRate(s, e, perKey, k, t);
  }

  /** `fromScrap` at a positive rate is the truncated key count and the
      lattice point of the remainder, which has the amount's sign. */
  lemma ScrapSplitAtRate(s: int, e: int, perKey: int, k: int, t: int)
    requires e >= 0 && perKey == Utils.ToScrap(e) && perKey > 0
    requires k == FromScrap(s, e).keys && t == s - k * perKey
    ensures FromScrap(s, e) == Currency(k, Utils.RefinedOfScrap(t))
    ensures Abs(t) < perKey && ((k >= 0 && t >= 0) || (k <= 0 && t <= 0))
  {
    assert k == Trunc(s, perKey) by {
      ScrapKeys(s, e);
      // `ScrapKeys` prices a key at `1 * perKey`, the per-key scrap of a
      // ratio with denominator 1.
      assert 1 * perKey == perKey;
    }
    TruncRemainder(s, perKey);
  }

  /** Where a key is `3 * m` scrap, i.e. `100 * m` hundredths of a reclaimed,
      the same amount written in reclaimed splits into the same keys and
      remainder. */
  lemma {:induction false} ReclaimedSplitAtRate(s: int, e: int, perKey: int, k: int, t: int)
    requires e >= 0 && perKey == Utils.ToScrap(e) && perKey > 0 && perKey % 3 == 0
    requires s == k * perKey + t && Abs(t) < perKey
    requires (k >= 0 && t >= 0) || (k <= 0 && t <= 0)
    ensures FromReclaimed(RoundDiv(100 * s, 3), e) == Currency(k, Utils.RefinedOfScrap(t))
  {
    var m := perKey / 3;
    assert perKey == 3 * m;
    assert Utils.ToReclaimed(e) == 100 * m by {
      RoundDivUnique(100 * perKey, 3, 100 * m);
    }
    ReclaimedSplit(s, k, m, t);
    var x := RoundDiv(100 * s, 3);
    var y := RoundDiv(100 * t, 3);
    ReclaimedKeys(x, e, k, y);
    Utils.ConvertReclaimed(t);
    Utils.RoundMetalIdempotent(Utils.RefinedOfScrap(t));
  }

  /** Where a key is a whole number of reclaimed, adding `j` whole reclaimed
      is adding `3 * j` scrap: `addReclaimed` keeps the value normalised and
      worth exactly three scrap more per reclaimed (see `AddScrap`). */
  lemma {:induction false} AddReclaimedWhole(c: Currency, j: int, e: int)
    requires e >= 0 && Utils.ToScrap(e) % 3 == 0 && ToScrap(c, e).Ok?
    ensures AddReclaimed(c, 100 * j, e) == Ok(FromScrap(ToScrap(c, e).value + 3 * j, e))
  {
    var s := ToScrap(c, e).value;
    var t := s + 3 * j;
    var r := 100 * j;
    ReclaimedShift(c, e, r, s, t);
  }

  /** At such a rate, adding `r` hundredths of a reclaimed that make a whole
      number of scrap lifts the new scrap total. */
  lemma ReclaimedShift(c: Currency, e: int, r: int, s: int, t: int)
    requires e >= 0 && Utils.ToScrap(e) % 3 == 0 && ToScrap(c, e) == Ok(s)
    requires 100 * t == 100 * s + 3 * r
    ensures AddReclaimed(c, r, e) == Ok(FromScrap(t, e))
  {
    var x := RoundDiv(100 * s, 3);
    assert ToReclaimed(c, e) == Ok(x);
    assert x + r == RoundDiv(100 * t, 3) by {
      RoundDivShift(100 * s, 3, r);
    }
    ReclaimedWorth(c, r, e, x, t);
  }

  lemma {:induction false} ReclaimedWorth(c: Currency, r: int, e: int, x: int, t: int)
    requires e >= 0 && Utils.ToScrap(e) % 3 == 0
    requires ToReclaimed(c, e) == Ok(x) && x + r == RoundDiv(100 * t, 3)
    ensures AddReclaimed(c, r, e) == Ok(FromScrap(t, e))
  {
    var y := x + r;
    var lifted := FromReclaimed(y, e);
    assert AddReclaimed(c, r, e) == Ok(lifted) by {
      AddReclaimedUnfold(c, r, e, x, y);
    }
    assert lifted == FromScrap(t, e) by {
      ReclaimedOfScrap(y, t, e);
    }
  }

  /** At such a rate adding and then subtracting the same whole reclaimed
      gives back the value re-normalised, and a normalised value exactly. */
  lemma AddSubtractReclaimed(c: Currency, j: int, e: int)
    requires e >= 0 && Utils.ToScrap(e) % 3 == 0 && ToScrap(c, e).Ok?
    ensures AddReclaimed(c, 100 * j, e).Ok?
    ensures SubtractReclaimed(AddReclaimed(c, 100 * j, e).value, 100 * j, e)
      == Ok(FromScrap(ToScrap(c, e).value, e))
    ensures Normalized(c, e) ==>
      SubtractReclaimed(AddReclaimed(c, 100 * j, e).value, 100 * j, e) == Ok(c)
  {
    var s := ToScrap(c, e).value;
    var t := s + 3 * j;
    var r := 100 * j;
    var added := FromScrap(t, e);
    ReclaimedShift(c, e, r, s, t);
    assert SubtractReclaimed(added, r, e) == Ok(FromScrap(s, e)) by {
      FromScrapRoundTrip(t, e);
      SubtractReclaimedWhole(added, j, e, t, s);
    }
    if Normalized(c, e) {
      assert FromScrap(s, e) == c by {
        NormalizedRoundTrip(c, e);
      }
    }
  }

  /** Subtracting `j` whole reclaimed at such a rate is subtracting
      `3 * j` scrap. */
  lemma SubtractReclaimedWhole(c: Currency, j: int, e: int, s: int, t: int)
    requires e >= 0 && Utils.ToScrap(e) % 3 == 0 && Worth(c, e, s)
    requires t == s - 3 * j
    ensures SubtractReclaimed(c, 100 * j, e) == Ok(FromScrap(t, e))
  {
    var r := -(100 * j);
    assert SubtractReclaimed(c, 100 * j, e) == AddReclaimed(c, r, e);
    assert AddReclaimed(c, r, e) == Ok(FromScrap(t, e)) by {
      ReclaimedShift(c, e, r, s, t);
    }
  }

  lemma {:induction false} ReclaimedAtZeroRate(s: int, e: int)
    requires e >= 0 && Utils.ToScrap(e) == 0
    ensures FromReclaimed(RoundDiv(100 * s, 3), e) == FromScrap(s, e)
  {
    var x := RoundDiv(100 * s, 3);
    RoundDivUnique(0, 3, 0);
    assert Utils.ToReclaimed(e) == 0;
    assert x - 0 * 0 == x;
    Utils.ConvertReclaimed(s);
    Utils.RoundMetalIdempotent(Utils.RefinedOfScrap(s));
  }

  /** `s` scrap split as `k` keys of `3 * m` scrap and a remainder `t`, in
      reclaimed: the keys stay whole and the remainder is `t` in reclaimed. */
  lemma {:induction false} ReclaimedSplit(s: int, k: int, m: int, t: int)
    requires m > 0 && s == k * (3 * m) + t && Abs(t) < 3 * m
    requires (k >= 0 && t >= 0) || (k <= 0 && t <= 0)
    ensures RoundDiv(100 * s, 3) == k * (100 * m) + RoundDiv(100 * t, 3)
    ensures Abs(RoundDiv(100 * t, 3)) < 100 * m
    ensures t >= 0 ==> RoundDiv(100 * t, 3) >= 0
    ensures t <= 0 ==> RoundDiv(100 * t, 3) <= 0
  {
    assert 100 * s == 100 * t + 3 * (k * (100 * m));
    RoundDivShift(100 * t, 3, k * (100 * m));
  }

  /** `fromReclaimed` of `k` keys of `100 * m` reclaimed and a smaller
      remainder `y` of the same sign. */
  lemma {:induction false} ReclaimedKeys(x: int, e: int, k: int, y: int)
    requires Utils.ToReclaimed(e) > 0 && x == k * Utils.ToReclaimed(e) + y
    requires Abs(y) < Utils.ToReclaimed(e)
    requires (k >= 0 && y >= 0) || (k <= 0 && y <= 0)
    ensures FromReclaimed(x, e) == Currency(k, Utils.RoundMetalSigned(Utils.ConvertMetal(y, 3)))
  {
    TruncOf(x, k, Utils.ToReclaimed(e), y);
  }

  /** The drift of `fromRefined` reaches `addRefined`: adding 564 ref to
      nothing at 62.66 ref per key gives 9 keys and 0.11 ref, one scrap more
      than the 5076 scrap added, where the corrected `AddRefinedExact` gives
      exactly 9 keys. */
  lemma AddRefinedDrift()
    ensures AddRefined(Zero, 56400, 6266) == Ok(Currency(9, 11))
    ensures AddRefinedExact(Zero, 56400, 6266) == Ok(Currency(9, 0))
    ensures Worth(Currency(9, 11), 6266, 5077)
    ensures Worth(Currency(9, 0), 6266, 5076)
  {
    assert AddRefined(Zero, 56400, 6266) == Ok(Currency(9, 11)) by {
      RefinedOfZero(6266);
      DriftKeys();
      DriftRefined();
    }
    assert AddRefinedExact(Zero, 56400, 6266) == Ok(Currency(9, 0)) by {
      RefinedOfZero(6266);
      DriftExact();
    }
    DriftWorth();
  }

  /** Nothing is worth no refined. */
  lemma RefinedOfZero(e: int)
    requires e >= 0
    ensures ToRefined(Zero, e) == Ok(0)
  {
    Utils.ToScrapMonotone(0, 0);
    assert ToScrap(Zero, e) == Ok(0);
  }

  lemma DriftWorth()
    ensures Worth(Currency(9, 11), 6266, 5077)
    ensures Worth(Currency(9, 0), 6266, 5076)
  {
    Utils.LatticeToScrap(62, 6);
    Utils.LatticeToScrap(0, 1);
    Utils.ToScrapMonotone(0, 0);
  }

  /** At an exchange rate of a whole number of refined the decimal split of
      `fromRefined` is exact: on a lattice amount it agrees with the
      corrected `FromRefinedExact`. */
  lemma {:induction false} FromRefinedWholeRate(h: int, w: int)
    requires w > 0 && Utils.OnSignedLattice(h)
    ensures FromRefined(h, 100 * w) == FromRefinedExact(h, 100 * w)
  {
    var c := FromRefined(h, 100 * w);
    WholeRateSplit(h, w);
    ExactSplit(h, w, c.keys, c.refined);
  }

  /** At a whole-refined rate `fromRefined` splits a lattice amount into
      whole keys and a lattice remainder with no rounding. */
  lemma {:induction false} WholeRateSplit(h: int, w: int)
    requires w > 0 && Utils.OnSignedLattice(h)
    ensures var c := FromRefined(h, 100 * w);
      && h == c.keys * (100 * w) + c.refined
      && Abs(c.refined) < 100 * w
      && ((c.keys >= 0 && c.refined >= 0) || (c.keys <= 0 && c.refined <= 0))
  {
    var e := 100 * w;
    assert Utils.OnLattice(e) && Utils.OnSignedLattice(e) by {
      DivUnique(e, 100, w);
    }
    assert Utils.RoundMetal(e) == e by {
      Utils.RoundedRate(e);
    }
    var k := Utils.ConvertExchangeToKeys(h, e);
    var m := h - k * e;
    Utils.KeysRemainder(h, e);
    assert Utils.OnSignedLattice(m) by {
      MulCommute(k, 100, w);
      Utils.LatticeShift(h, k * w);
    }
    assert Utils.ConvertMetal(m, 1) == m by {
      RoundDivUnique(m, 1, m);
      Utils.RoundMetalIdempotent(m);
    }
    assert FromRefined(h, e) == New(Some(k), Some(Utils.ConvertMetal(m, 1))) by {
      FromRefinedUnfold(h, e, e, k, m);
    }
    assert FromRefined(h, e) == Currency(k, m);
  }

  /** A lattice amount made of `k` keys of a whole-refined rate and a
      smaller lattice remainder `m` is worth exactly that split in scrap, so
      the corrected lift reproduces it. */
  lemma {:induction false} ExactSplit(h: int, w: int, k: int, m: int)
    requires w > 0 && Utils.OnSignedLattice(m)
    requires h == k * (100 * w) + m && Abs(m) < 100 * w
    requires (k >= 0 && m >= 0) || (k <= 0 && m <= 0)
    ensures FromRefinedExact(h, 100 * w) == Currency(k, m)
  {
    var e := 100 * w;
    var t := Utils.ToScrap(m);
    Utils.LatticeRoundTrip(m);
    Utils.WholeRefined(k * w);
    Utils.LatticeAdditive(9 * (k * w), t);
    MulCommute(k, 100, w);
    MulCommute(k, 9, w);
    Utils.LatticeToScrap(w, 0);
    Utils.LatticeBelow(m, w);
    FromScrapSplit(Utils.ToScrap(h), e, k, t);
  }

  /** So at a whole-refined exchange rate `addRefined` as written is exact
      whenever the refined total it lifts back lies on the lattice. */
  lemma AddRefinedWholeRate(c: Currency, h: int, w: int)
    requires w > 0
    requires Utils.OnSignedLattice(ToRefined(c, 100 * w).value + h)
    ensures AddRefined(c, h, 100 * w) == AddRefinedExact(c, h, 100 * w)
  {
    FromRefinedWholeRate(ToRefined(c, 100 * w).value + h, w);
  }

  /** A fractional scrap amount that happens to be whole is lifted exactly
      as that whole amount: `fromScrap(k * den / den)` is `fromScrap(k)`. */
  lemma {:induction false} FromScrapRatioWhole(k: int, den: int, e: int)
    requires den > 0 && e >= 0
    ensures FromScrapRatio(k * den, den, e) == FromScrap(k, e)
  {
    var perKey := Utils.ToScrap(e);
    var keys := Utils.ConvertExchangeToKeys(k, 1 * perKey);
    var metal := Utils.ConvertMetal(100 * (k - keys * (1 * perKey)), 9 * 1);
    assert FromScrapRatio(k * den, den, e) == New(Some(keys), Some(metal)) by {
      ScaledUnfold(k, den, e);
      ScaledMetal(k, keys, perKey, den);
    }
    assert FromScrap(k, e) == New(Some(keys), Some(metal)) by {
      WholeUnfold(k, e, keys, metal);
    }
  }

  /** `FromScrapRatio` of a multiple of the denominator spelled out, with
      the keys of the whole amount. */
  lemma ScaledUnfold(k: int, den: int, e: int)
    requires den > 0 && e >= 0
    ensures var keys := Utils.ConvertExchangeToKeys(k, 1 * Utils.ToScrap(e));
      FromScrapRatio(k * den, den, e)
        == New(Some(keys), Some(Utils.ConvertMetal(100 * (k * den - keys * (den * Utils.ToScrap(e))), 9 * den)))
  {
    WholeKeys(k, den, e);
    RatioUnfold(k * den, den, e);
  }

  /** `fromScrap` spelled out. */
  lemma WholeUnfold(k: int, e: int, keys: int, metal: int)
    requires keys == Utils.ConvertExchangeToKeys(k, 1 * Utils.ToScrap(e))
    requires metal == Utils.ConvertMetal(100 * (k - keys * (1 * Utils.ToScrap(e))), 9 * 1)
    ensures FromScrap(k, e) == New(Some(keys), Some(metal))
  {
    assert FromScrap(k, e) == FromScrapRatio(k, 1, e);
    RatioUnfold(k, 1, e);
  }

  /** The remainder of `k * den` over `den` keys' worth, converted with the
      denominator, is the remainder of `k` converted without. */
  lemma ScaledMetal(k: int, keys: int, perKey: int, den: int)
    requires den > 0
    ensures Utils.ConvertMetal(100 * (k * den - keys * (den * perKey)), 9 * den)
         == Utils.ConvertMetal(100 * (k - keys * (1 * perKey)), 9 * 1)
  {
    ScaleDistributes(k, keys, perKey, den);
    WholeMetal(k - keys * (1 * perKey), den, k * den - keys * (den * perKey));
  }

  /** `FromScrapRatio` spelled out. */
  lemma RatioUnfold(num: int, den: int, e: int)
    requires den > 0
    ensures var keys := Utils.ConvertExchangeToKeys(num, den * Utils.ToScrap(e));
      FromScrapRatio(num, den, e)
        == New(Some(keys), Some(Utils.ConvertMetal(100 * (num - keys * (den * Utils.ToScrap(e))), 9 * den)))
  {
  }

  lemma WholeKeys(k: int, den: int, e: int)
    requires den > 0 && e >= 0
    ensures Utils.ConvertExchangeToKeys(k * den, den * Utils.ToScrap(e))
         == Utils.ConvertExchangeToKeys(k, 1 * Utils.ToScrap(e))
  {
    var perKey := Utils.ToScrap(e);
    Utils.ToScrapMonotone(0, e);
    if perKey > 0 {
      TruncScale(k, perKey, den);
      assert den * perKey == perKey * den;
    } else {
      assert den * perKey == 0;
    }
  }

  lemma ScaleDistributes(k: int, keys: int, perKey: int, den: int)
    ensures k * den - keys * (den * perKey) == (k - keys * (1 * perKey)) * den
  {
  }

  lemma WholeMetal(m: int, den: int, a: int)
    requires den > 0 && a == m * den
    ensures Utils.ConvertMetal(100 * a, 9 * den) == Utils.ConvertMetal(100 * m, 9 * 1)
  {
    assert 100 * a == (100 * m) * den;
    RoundDivScale(100 * m, 9, den);
  }
}

=== FILE: results.dfy ===
/** Failure-compatible wrappers shared by the currency model. */
module Results {

  /** The two kinds of failure the library raises. `CurrencyError` is the
      missing-rate domain error thrown by `Currency`; `RangeError` is the
      built-in error thrown by `Calculator` for an out-of-range argument. */
  datatype Error = CurrencyError | RangeError

  /** An optional argument: `None` stands for a property left out of the
      options object (JavaScript `undefined`). */
  datatype Option<+T> = None | Some(value: T) {
    function GetOr(default: T): T {
      match this
      case Some(v) => v
      case None => default
    }
  }

  /** Either a value or the error an operation throws. */
  datatype Result<+T> = Ok(value: T) | Err(error: Error) {
    predicate IsFailure() {
      Err?
    }

    function PropagateFailure<U>(): Result<U>
      requires Err?
    {
      Err(error)
    }

    function Extract(): T
      requires Ok?
    {
      value
    }
  }
}

=== FILE: scenarios.dfy ===
/** The library's documented examples, checked against the model. Amounts
    are in the model's units: refined and exchange rates in hundredths,
    fractional keys in ten-thousandths, `toKeys` results in hundredths of a
    key. Each example is reduced to scrap with the lattice lemmas and lifted
    back with `NormalizedRoundTrip`. */
module Scenarios {
  import opened Results
  import opened Arith
  import Utils
  import opened Currencies
  import opened Calculators

  /** `w + 0.11 * d` and its negation are lattice points worth `9 * w + d`
      scrap, and the constructor keeps them. */
  lemma Lattice(w: nat, d: int)
    requires 0 <= d <= 8
    ensures Utils.OnSignedLattice(100 * w + 11 * d) && Utils.OnSignedLattice(-(100 * w + 11 * d))
    ensures Utils.ToScrap(100 * w + 11 * d) == 9 * w + d
    ensures Utils.ToScrap(-(100 * w + 11 * d)) == -(9 * w + d)
    ensures forall k :: New(Some(k), Some(100 * w + 11 * d)) == Currency(k, 100 * w + 11 * d)
    ensures forall k :: New(Some(k), Some(-(100 * w + 11 * d))) == Currency(k, -(100 * w + 11 * d))
  {
    Utils.LatticeToScrap(w, d);
    LatticePoint(w, d);
  }

  lemma LatticePoint(w: nat, d: int)
    requires 0 <= d <= 8
    ensures Utils.OnSignedLattice(100 * w + 11 * d) && Utils.OnSignedLattice(-(100 * w + 11 * d))
  {
    DivUnique(100 * w + 11 * d, 100, w);
  }

  /** Exchange rates as scrap per key. */
  lemma ExchangeInScrap()
    ensures Utils.ToScrap(6266) == 564
    ensures Utils.ToScrap(6688) == 602
    ensures Utils.ToScrap(5500) == 495
    ensures Utils.ToScrap(5622) == 506
    ensures Utils.ToScrap(5900) == 531
  {
    Lattice(62, 6);
    Lattice(66, 8);
    Lattice(55, 0);
    Lattice(56, 2);
    Lattice(59, 0);
  }

  /** `roundFloat` to two decimals by default and four on request, and
      `convertExchangeToKeys` with and without an exchange rate. */
  lemma UtilsExamples()
    ensures Utils.RoundFloat(5563400098, 1000000000, 2) == 556
    ensures Utils.RoundFloat(213489333301, 10000000000, 4) == 213489
    ensures Utils.ConvertExchangeToKeys(4577, 0) == 0
    ensures Utils.ConvertExchangeToKeys(13166, 5500) == 2
  {
    RoundDivUnique(5563400098 * 100, 1000000000, 556);
    RoundDivUnique(213489333301 * 10000, 10000000000, 213489);
    TruncUnique(2, 5500, 2166);
  }

  /** 12 keys and 46.22 ref are 6488 scrap at 56.22, and cannot be priced
      without a rate; 2 keys and 37.11 ref are 2.66 keys at 56.22. */
  lemma CurrencyExamples()
    ensures Worth(New(Some(12), Some(4622)), 5622, 6488)
    ensures ToScrap(New(Some(12), Some(4622)), 0) == Err(CurrencyError)
    ensures ToKeys(New(Some(2), Some(3711)), 5622) == Ok(266)
    ensures ToKeys(New(Some(22), Some(1355)), 0) == Err(CurrencyError)
    ensures Copy(New(Some(350), None)) == New(Some(350), None)
  {
    ExchangeInScrap();
    Lattice(46, 2);
    Lattice(37, 1);
    Lattice(13, 5);
    RoundDivUnique(3711 * 100, 5622, 66);
  }

  /** `add` at rate `e` of operands worth `a` and `b` scrap is the
      normalised value worth `a + b`. */
  lemma AddIs(e: int, x: Currency, y: Currency, a: int, b: int, c: Currency)
    requires e > 0 && Worth(x, e, a) && Worth(y, e, b)
    requires Normalized(c, e) && Worth(c, e, a + b)
    ensures Add(Calculator(e), x, y) == Ok(c)
  {
    var r := Add(Calculator(e), x, y);
    assert r.Ok?;
    SameWorth(r.value, c, e, a + b);
  }

  lemma SubtractIs(e: int, x: Currency, y: Currency, a: int, b: int, c: Currency)
    requires e > 0 && Worth(x, e, a) && Worth(y, e, b)
    requires Normalized(c, e) && Worth(c, e, a - b)
    ensures Subtract(Calculator(e), x, y) == Ok(c)
  {
    var r := Subtract(Calculator(e), x, y);
    assert r.Ok?;
    SameWorth(r.value, c, e, a - b);
  }

  lemma MultiplyIs(e: int, x: Currency, a: int, f: int, c: Currency)
    requires e > 0 && f != 0 && Worth(x, e, a)
    requires Normalized(c, e) && Worth(c, e, a * f)
    ensures Multiply(Calculator(e), x, f) == Ok(c)
  {
    var r := Multiply(Calculator(e), x, f);
    Lifts(r.value, e, a * f);
    Lifts(c, e, a * f);
    assert r.Ok? && r.value == c;
  }

  /** 23.44 + 31.55 ref at 55 ref: exactly one key. */
  lemma AddToWholeKey()
    ensures Add(Calculator(5500), New(None, Some(2344)), New(None, Some(3155))) == Ok(Currency(1, 0))
  {
    ExchangeInScrap();
    Lattice(0, 0);
    Lattice(23, 4);
    Lattice(31, 5);
    AddIs(5500, Currency(0, 2344), Currency(0, 3155), 211, 284, Currency(1, 0));
  }

  /** 5 keys 23.88 ref + 2 keys 47.33 ref at 62.66 ref. */
  lemma AddCarries()
    ensures Add(Calculator(6266), New(Some(5), Some(2388)), New(Some(2), Some(4733))) == Ok(Currency(8, 855))
  {
    ExchangeInScrap();
    Lattice(23, 8);
    Lattice(47, 3);
    Lattice(8, 5);
    AddIs(6266, Currency(5, 2388), Currency(2, 4733), 3035, 1554, Currency(8, 855));
  }

  /** 43.33 + 57.11 ref at 66.88 ref. */
  lemma AddMetalOnly()
    ensures Add(Calculator(6688), New(None, Some(4333)), New(None, Some(5711))) == Ok(Currency(1, 3355))
  {
    ExchangeInScrap();
    Lattice(43, 3);
    Lattice(57, 1);
    Lattice(33, 5);
    AddIs(6688, Currency(0, 4333), Currency(0, 5711), 390, 514, Currency(1, 3355));
  }

  /** Two negative values at 66.88 ref. */
  lemma AddNegatives()
    ensures Add(Calculator(6688), New(Some(-3), Some(-733)), New(Some(-7), Some(-1644))) == Ok(Currency(-10, -2377))
  {
    ExchangeInScrap();
    Lattice(7, 3);
    Lattice(16, 4);
    Lattice(23, 7);
    AddIs(6688, Currency(-3, -733), Currency(-7, -1644), -1872, -4362, Currency(-10, -2377));
  }

  /** 5 keys 23.88 ref - 2 keys 47.33 ref at 66.88 ref borrows a key. */
  lemma SubtractBorrows()
    ensures Subtract(Calculator(6688), New(Some(5), Some(2388)), New(Some(2), Some(4733))) == Ok(Currency(2, 4344))
  {
    ExchangeInScrap();
    Lattice(23, 8);
    Lattice(47, 3);
    Lattice(43, 4);
    SubtractIs(6688, Currency(5, 2388), Currency(2, 4733), 3225, 1630, Currency(2, 4344));
  }

  /** A value minus itself is nothing. */
  lemma SubtractToZero()
    ensures Subtract(Calculator(6266), New(Some(1), Some(1122)), New(Some(1), Some(1122))) == Ok(Zero)
  {
    assert New(Some(1), Some(1122)) == Currency(1, 1122) by { Lattice(11, 2); }
    assert Worth(Currency(1, 1122), 6266, 665) by { Lattice(11, 2); Lattice(62, 6); }
    assert Normalized(Zero, 6266) && Worth(Zero, 6266, 0) by { Lattice(0, 0); Lattice(62, 6); }
    SubtractIs(6266, Currency(1, 1122), Currency(1, 1122), 665, 665, Zero);
  }

  /** 1 key 23.88 ref - 2 keys 47.33 ref at 66.88 ref is negative. */
  lemma SubtractBelowZero()
    ensures Subtract(Calculator(6688), New(Some(1), Some(2388)), New(Some(2), Some(4733))) == Ok(Currency(-1, -2344))
  {
    ExchangeInScrap();
    Lattice(23, 8);
    Lattice(47, 3);
    Lattice(23, 4);
    SubtractIs(6688, Currency(1, 2388), Currency(2, 4733), 817, 1630, Currency(-1, -2344));
  }

  lemma MultiplyByThree()
    ensures Multiply(Calculator(6266), New(Some(4), Some(1088)), 3) == Ok(Currency(12, 3266))
  {
    ExchangeInScrap();
    Lattice(10, 8);
    Lattice(32, 6);
    MultiplyIs(6266, Currency(4, 1088), 2354, 3, Currency(12, 3266));
  }

  /** 4 keys 10.88 ref times -2 at 62.66 ref, either sign carrying the minus;
      7 keys 40.77 ref cannot be multiplied by zero at 66.88 ref. */
  lemma MultiplyByNegative()
    ensures Multiply(Calculator(6266), New(Some(4), Some(1088)), -2) == Ok(Currency(-8, -2177))
    ensures Multiply(Calculator(6266), New(Some(-4), Some(-1088)), 2) == Ok(Currency(-8, -2177))
    ensures Multiply(Calculator(6688), New(Some(7), Some(4077)), 0) == Err(RangeError)
  {
    ExchangeInScrap();
    Lattice(10, 8);
    Lattice(21, 7);
    MultiplyIs(6266, Currency(4, 1088), 2354, -2, Currency(-8, -2177));
    MultiplyIs(6266, Currency(-4, -1088), -2354, 2, Currency(-8, -2177));
  }

  lemma DivideIs(e: int, x: Currency, a: int, f: int, c: Currency)
    requires e > 0 && f != 0 && Worth(x, e, a) && a % f == 0
    requires Normalized(c, e) && Worth(c, e, a / f)
    ensures Divide(Calculator(e), x, f) == Ok(c)
  {
    DivideExact(Calculator(e), x, f);
    Lifts(c, e, a / f);
  }

  /** 4 keys 10.88 ref halved at 62.66 ref, exactly; 7 keys 40.77 ref cannot
      be divided by zero at 66.88 ref. */
  lemma DivideEvenly()
    ensures Divide(Calculator(6266), New(Some(4), Some(1088)), 2) == Ok(Currency(2, 544))
    ensures Divide(Calculator(6688), New(Some(7), Some(4077)), 0) == Err(RangeError)
  {
    ExchangeInScrap();
    Lattice(10, 8);
    Lattice(5, 4);
    DivideIs(6266, Currency(4, 1088), 2354, 2, Currency(2, 544));
  }

  /** -11 keys halved at 62.66 ref: the odd key becomes refined. */
  lemma DivideNegative()
    ensures Divide(Calculator(6266), New(Some(-11), None), 2) == Ok(Currency(-5, -3133))
  {
    ExchangeInScrap();
    Lattice(0, 0);
    Lattice(31, 3);
    DivideIs(6266, Currency(-11, 0), -6204, 2, Currency(-5, -3133));
  }

  /** 3 keys 22.11 ref divided by -2 at 62.66 ref: 1891 scrap does not halve,
      and the half scrap is rounded on the way to refined. */
  lemma DivideInexact()
    ensures Divide(Calculator(6266), New(Some(3), Some(2211)), -2) == Ok(Currency(-1, -4244))
  {
    assert New(Some(3), Some(2211)) == Currency(3, 2211) by { Lattice(22, 1); }
    assert Worth(Currency(3, 2211), 6266, 1891) by { Lattice(22, 1); Lattice(62, 6); }
    InexactRatio();
    assert DivideScrap(1891, -2, 6266) == Currency(-1, -4244);
  }

  /** Half of -1891 scrap at 62.66 ref: one key back and 763 scrap over two
      keys' worth, rounded to -42.44 ref. */
  lemma InexactRatio()
    ensures FromScrapRatio(-1891, 2, 6266) == Currency(-1, -4244)
  {
    assert Utils.ToScrap(6266) == 564 by { Lattice(62, 6); }
    assert Utils.ConvertExchangeToKeys(-1891, 2 * 564) == -1;
    assert Utils.ConvertMetal(100 * -763, 9 * 2) == -4244 by {
      RoundDivUnique(-76300, 18, -4239);
      Lattice(42, 4);
      Utils.SnapToLattice(-4239, -4244);
    }
    Lattice(42, 4);
  }

  /** `fromKeys` with a rate: the whole keys by truncation and the
      fraction priced. */
  lemma KeysUnfold(v: int, e: int, k: int, f: int)
    requires e > 0 && k == Utils.RoundBySign(v, 10000) && f == v - k * 10000
    ensures FromKeys(v, e) == Ok(PriceFraction(k, f, e))
  {
    FromKeysUnfold(v, e, k, f);
  }

  /** Two roundings of the same amount agree. */
  lemma SameRounding(m: int, t: int, sc: int)
    requires 10000 * (2 * t - 1) <= m < 10000 * (2 * t + 1)
    requires 10000 * (2 * sc - 1) <= m < 10000 * (2 * sc + 1)
    ensures t == sc
  {
  }

  /** A fraction `f` of a key at rate `e` rounding to `sc` scrap, worth `h`. */
  lemma FractionPriced(k: int, f: int, e: int, sc: int, h: int)
    requires Utils.OnSignedLattice(h) && Utils.ToScrap(h) == sc
    requires 10000 * (2 * sc - 1) <= 2 * f * Utils.ToScrap(e) < 10000 * (2 * sc + 1)
    ensures PriceFraction(k, f, e) == Currency(k, h)
  {
    var c := PriceFraction(k, f, e);
    FractionPrice(k, f, e);
    SameRounding(2 * f * Utils.ToScrap(e), Utils.ToScrap(c.refined), sc);
    Utils.LatticeRoundTrip(c.refined);
    Utils.LatticeRoundTrip(h);
  }

  /** `fromKeys` of `v` ten-thousandths at rate `e`, given its whole keys
      `k` and the scrap `sc` the fraction rounds to, which is worth `h`. */
  lemma KeysPriced(v: int, e: int, k: int, f: int, sc: int, h: int)
    requires e > 0 && Utils.OnSignedLattice(h) && Utils.ToScrap(h) == sc
    requires Utils.RoundBySign(v, 10000) == k && f == v - k * 10000
    requires 10000 * (2 * sc - 1) <= 2 * f * Utils.ToScrap(e) < 10000 * (2 * sc + 1)
    ensures FromKeys(v, e) == Ok(Currency(k, h))
  {
    KeysUnfold(v, e, k, f);
    FractionPriced(k, f, e, sc, h);
  }

  /** The scrap total of three priceable values. */
  lemma SumOfThree(a: Currency, b: Currency, c: Currency, e: int)
    requires ToScrap(a, e).Ok? && ToScrap(b, e).Ok? && ToScrap(c, e).Ok?
    ensures SumScrap([a, b, c], e) == Ok(ToScrap(a, e).value + ToScrap(b, e).value + ToScrap(c, e).value)
  {
    assert [a][..0] == [];
    assert SumScrap([a], e) == Ok(ToScrap(a, e).value);
    assert [a, b][..1] == [a];
    assert SumScrap([a, b], e) == Ok(ToScrap(a, e).value + ToScrap(b, e).value);
    assert [a, b, c][..2] == [a, b];
  }

  /** `fromRefined` of a positive amount below the rate keeps it whole. */
  lemma RefinedBelowRate(h: int, e: int)
    requires 0 <= h < e && Utils.OnSignedLattice(e) && Utils.OnSignedLattice(h)
    ensures FromRefined(h, e) == Currency(0, h)
  {
    assert Utils.RoundMetal(e) == e by { Utils.RoundedRate(e); }
    assert Utils.ConvertExchangeToKeys(h, e) == 0 by {
      var k := Utils.ConvertExchangeToKeys(h, e);
      Utils.KeysRemainder(h, e);
      if k >= 1 { MulMonotone(e, 1, k); }
    }
    assert Utils.ConvertMetal(h, 1) == h by {
      RoundDivUnique(h, 1, h);
      Utils.RoundMetalIdempotent(h);
    }
    assert FromRefined(h, e) == New(Some(0), Some(Utils.ConvertMetal(h, 1))) by {
      FromRefinedUnfold(h, e, e, 0, h);
    }
    assert New(Some(0), Some(h)) == Currency(0, h);
  }

  /** `fromRefined` of a negative amount above minus the rate. */
  lemma RefinedAboveMinusRate(h: int, e: int)
    requires -e < h <= 0 && Utils.OnSignedLattice(e) && Utils.OnSignedLattice(h)
    ensures FromRefined(h, e) == Currency(0, h)
  {
    assert Utils.RoundMetal(e) == e by { Utils.RoundedRate(e); }
    assert Utils.ConvertExchangeToKeys(h, e) == 0 by {
      var k := Utils.ConvertExchangeToKeys(h, e);
      Utils.KeysRemainder(h, e);
      if k <= -1 { MulMonotone(e, k, -1); }
    }
    assert Utils.ConvertMetal(h, 1) == h by {
      RoundDivUnique(h, 1, h);
      Utils.RoundMetalIdempotent(h);
    }
    assert FromRefined(h, e) == New(Some(0), Some(Utils.ConvertMetal(h, 1))) by {
      FromRefinedUnfold(h, e, e, 0, h);
    }
    assert New(Some(0), Some(h)) == Currency(0, h);
  }

  /** A value of `h` refined and no keys is `q` hundredths of a key at rate
      `e` when `q` is the nearest. */
  lemma MetalInKeys(h: int, e: int, q: int)
    requires e > 0 && h != 0
    requires e * (2 * q - 1) <= 200 * h < e * (2 * q + 1)
    ensures ToKeys(Currency(0, h), e) == Ok(q)
  {
    var r := ToKeys(Currency(0, h), e);
    ToKeysValue(Currency(0, h), e);
    RoundDivUnique(100 * h, e, r.value);
    RoundDivUnique(100 * h, e, q);
  }

  /** 1.15 keys, 42.66 ref and 4.74 keys at 55 ref make 3299 scrap, i.e. 366.55 ref or 6.66 keys. */
  lemma SumPositiveOperands()
    ensures FromKeys(11500, 5500) == Ok(Currency(1, 822)) && FromKeys(47400, 5500) == Ok(Currency(4, 4066))
    ensures FromRefined(4266, 5500) == Currency(0, 4266)
  {
    assert Utils.ToScrap(5500) == 495 by { Lattice(55, 0); }
    assert FromKeys(11500, 5500) == Ok(Currency(1, 822)) by {
      TruncUnique(1, 10000, 1500);
      Lattice(8, 2);
      KeysPriced(11500, 5500, 1, 1500, 74, 822);
    }
    assert FromKeys(47400, 5500) == Ok(Currency(4, 4066)) by {
      TruncUnique(4, 10000, 7400);
      Lattice(40, 6);
      KeysPriced(47400, 5500, 4, 7400, 366, 4066);
    }
    assert FromRefined(4266, 5500) == Currency(0, 4266) by {
      Lattice(42, 6);
      Lattice(55, 0);
      RefinedBelowRate(4266, 5500);
    }
  }

  /** The scrap total of the three operands above. */
  lemma SumPositiveTotal()
    ensures SumScrap([Currency(1, 822), Currency(0, 4266), Currency(4, 4066)], 5500) == Ok(3299)
  {
    assert Utils.ToScrap(5500) == 495 by { Lattice(55, 0); }
    assert Worth(Currency(1, 822), 5500, 569) by { Lattice(8, 2); }
    assert Worth(Currency(0, 4266), 5500, 384) by { Lattice(42, 6); }
    assert Worth(Currency(4, 4066), 5500, 2346) by { Lattice(40, 6); }
    SumOfThree(Currency(1, 822), Currency(0, 4266), Currency(4, 4066), 5500);
  }

  /** The example as stated on the library's own values. */
  lemma SumPositive()
    ensures FromKeys(11500, 5500).Ok? && FromKeys(47400, 5500).Ok?
    ensures SumScrap([FromKeys(11500, 5500).value, FromRefined(4266, 5500), FromKeys(47400, 5500).value], 5500) == Ok(3299)
  {
    SumPositiveOperands();
    SumPositiveTotal();
  }

  /** The sum is lifted without an exchange rate and read back in keys. */
  lemma SumPositiveInKeys()
    ensures FromScrap(3299, 0) == Currency(0, 36655)
    ensures ToKeys(Currency(0, 36655), 5500) == Ok(666)
  {
    Lattice(366, 5);
    assert Normalized(Currency(0, 36655), 0);
    Lifts(Currency(0, 36655), 0, 3299);
    MetalInKeys(36655, 5500, 666);
  }

  /** -2.7 keys, -31.88 ref and -2.74 keys at 55 ref make -6.02 keys; the half scrap of -346.5 rounds up to -346. */
  lemma SumNegativeOperands()
    ensures FromKeys(-27000, 5500) == Ok(Currency(-2, -3844)) && FromKeys(-27400, 5500) == Ok(Currency(-2, -4066))
    ensures FromRefined(-3188, 5500) == Currency(0, -3188)
  {
    assert Utils.ToScrap(5500) == 495 by { Lattice(55, 0); }
    assert FromKeys(-27000, 5500) == Ok(Currency(-2, -3844)) by {
      TruncUnique(-2, 10000, -7000);
      Lattice(38, 4);
      KeysPriced(-27000, 5500, -2, -7000, -346, -3844);
    }
    assert FromKeys(-27400, 5500) == Ok(Currency(-2, -4066)) by {
      TruncUnique(-2, 10000, -7400);
      Lattice(40, 6);
      KeysPriced(-27400, 5500, -2, -7400, -366, -4066);
    }
    assert FromRefined(-3188, 5500) == Currency(0, -3188) by {
      Lattice(31, 8);
      Lattice(55, 0);
      RefinedAboveMinusRate(-3188, 5500);
    }
  }

  /** The scrap total of the three operands above. */
  lemma SumNegativeTotal()
    ensures SumScrap([Currency(-2, -3844), Currency(0, -3188), Currency(-2, -4066)], 5500) == Ok(-2979)
  {
    assert Utils.ToScrap(5500) == 495 by { Lattice(55, 0); }
    assert Worth(Currency(-2, -3844), 5500, -1336) by { Lattice(38, 4); }
    assert Worth(Currency(0, -3188), 5500, -287) by { Lattice(31, 8); }
    assert Worth(Currency(-2, -4066), 5500, -1356) by { Lattice(40, 6); }
    SumOfThree(Currency(-2, -3844), Currency(0, -3188), Currency(-2, -4066), 5500);
  }

  /** The example as stated on the library's own values. */
  lemma SumNegative()
    ensures FromKeys(-27000, 5500).Ok? && FromKeys(-27400, 5500).Ok?
    ensures SumScrap([FromKeys(-27000, 5500).value, FromRefined(-3188, 5500), FromKeys(-27400, 5500).value], 5500) == Ok(-2979)
  {
    SumNegativeOperands();
    SumNegativeTotal();
  }

  /** The sum is lifted without an exchange rate and read back in keys. */
  lemma SumNegativeInKeys()
    ensures FromScrap(-2979, 0) == Currency(0, -33100)
    ensures ToKeys(Currency(0, -33100), 5500) == Ok(-602)
  {
    Lattice(331, 0);
    assert Normalized(Currency(0, -33100), 0);
    Lifts(Currency(0, -33100), 0, -2979);
    MetalInKeys(-33100, 5500, -602);
  }

  /** 3.4 keys, 21.55 ref and -2.74 keys at 59 ref make 1.02 keys. */
  lemma SumMixedOperands()
    ensures FromKeys(34000, 5900) == Ok(Currency(3, 2355)) && FromKeys(-27400, 5900) == Ok(Currency(-2, -4366))
    ensures FromRefined(2155, 5900) == Currency(0, 2155)
  {
    assert Utils.ToScrap(5900) == 531 by { Lattice(59, 0); }
    assert FromKeys(34000, 5900) == Ok(Currency(3, 2355)) by {
      TruncUnique(3, 10000, 4000);
      Lattice(23, 5);
      KeysPriced(34000, 5900, 3, 4000, 212, 2355);
    }
    assert FromKeys(-27400, 5900) == Ok(Currency(-2, -4366)) by {
      TruncUnique(-2, 10000, -7400);
      Lattice(43, 6);
      KeysPriced(-27400, 5900, -2, -7400, -393, -4366);
    }
    assert FromRefined(2155, 5900) == Currency(0, 2155) by {
      Lattice(21, 5);
      Lattice(59, 0);
      RefinedBelowRate(2155, 5900);
    }
  }

  /** The scrap total of the three operands above. */
  lemma SumMixedTotal()
    ensures SumScrap([Currency(3, 2355), Currency(0, 2155), Currency(-2, -4366)], 5900) == Ok(544)
  {
    assert Utils.ToScrap(5900) == 531 by { Lattice(59, 0); }
    assert Worth(Currency(3, 2355), 5900, 1805) by { Lattice(23, 5); }
    assert Worth(Currency(0, 2155), 5900, 194) by { Lattice(21, 5); }
    assert Worth(Currency(-2, -4366), 5900, -1455) by { Lattice(43, 6); }
    SumOfThree(Currency(3, 2355), Currency(0, 2155), Currency(-2, -4366), 5900);
  }

  /** The example as stated on the library's own values. */
  lemma SumMixed()
    ensures FromKeys(34000, 5900).Ok? && FromKeys(-27400, 5900).Ok?
    ensures SumScrap([FromKeys(34000, 5900).value, FromRefined(2155, 5900), FromKeys(-27400, 5900).value], 5900) == Ok(544)
  {
    SumMixedOperands();
    SumMixedTotal();
  }

  /** The sum is lifted without an exchange rate and read back in keys. */
  lemma SumMixedInKeys()
    ensures FromScrap(544, 0) == Currency(0, 6044)
    ensures ToKeys(Currency(0, 6044), 5900) == Ok(102)
  {
    Lattice(60, 4);
    assert Normalized(Currency(0, 6044), 0);
    Lifts(Currency(0, 6044), 0, 544);
    MetalInKeys(6044, 5900, 102);
  }

  /** The constructors' defaults and range checks. */
  lemma ConstructorExamples()
    ensures New(None, None) == Zero
    ensures NewCalculator(Some(-7122)) == Err(RangeError)
    ensures NewCalculator(None) == Ok(Calculator(0))
    ensures NewCalculator(Some(5500)) == Ok(Calculator(5500))
  {
  }
}

=== FILE: utils.dfy ===
/** The rounding and unit-conversion primitives of `src/lib/utils.ts`.

    Refined metal is measured in integer hundredths of a refined (23.44 ref
    is 2344); scrap is an integer; one refined is nine scrap. A refined amount
    is only meaningful on the lattice `whole + 0.11 * d` with `0 <= d <= 8`,
    because `0.11` stands for one ninth of a refined. */
module Utils {
  import opened Arith

  /** `h` hundredths is `whole + 0.11 * d` for some integer `whole` (floored)
      and `0 <= d <= 8`. */
  predicate OnLattice(h: int) {
    h % 100 <= 88 && (h % 100) % 11 == 0
  }

  /** The sign-symmetric lattice: `|h|` is on the lattice. */
  predicate OnSignedLattice(h: int) {
    OnLattice(Abs(h))
  }

  /** The refined amount worth exactly `s` scrap: `w + 0.11 * d` where
      `|s| = 9 * w + d`, with the sign of `s`. This is the reference the
      conversions below are measured against. */
  function RefinedOfScrap(s: int): (h: int)
    ensures OnSignedLattice(h)
    ensures s >= 0 ==> 100 * s - 8 <= 9 * h <= 100 * s
    ensures s <= 0 ==> 100 * s <= 9 * h <= 100 * s + 8
  {
    var a := Abs(s);
    var r := 100 * (a / 9) + 11 * (a % 9);
    assert r % 100 == 11 * (a % 9) by {
      DivUnique(r, 100, a / 9);
    }
    if s >= 0 then r else -r
  }

  /** `roundMetal` exactly as written: the whole part is `Math.floor`, so for
      a negative amount the fraction is measured upwards from the next lower
      integer. The result is the lattice point nearest to `h` (a tie goes
      up), and a rounded `d` of 9 carries into the whole part. */
  function RoundMetal(h: int): (r: int)
    ensures OnLattice(r)
    ensures -5 <= r - h <= 6
  {
    var whole := h / 100;
    var frac := h % 100;
    var decimal := RoundDiv(frac, 11);
    var r := 100 * whole + (if decimal == 9 then 100 else 11 * decimal);
    assert r % 100 == (if decimal == 9 then 0 else 11 * decimal) by {
      if decimal == 9 {
        DivUnique(r, 100, whole + 1);
      } else {
        DivUnique(r, 100, whole);
      }
    }
    r
  }

  /** `roundMetal` lifted to be sign-symmetric: the magnitude is rounded and
      the sign put back. This is the behaviour the library's callers rely on
      for negative amounts (see README, Findings). */
  function RoundMetalSigned(h: int): (r: int)
    ensures OnSignedLattice(r)
    ensures Abs(r - h) <= 6
    ensures h >= 0 ==> r >= 0
    ensures h <= 0 ==> r <= 0
  {
    if h < 0 then
      var m := RoundMetal(-h);
      LatticeAboveMinusTwelve(m);
      -m
    else
      LatticeAboveMinusTwelve(RoundMetal(h));
      RoundMetal(h)
  }

  /** A rate rounded with `roundMetal` keeps its sign, agrees with the
      sign-symmetric rounding, and a lattice rate is kept as it is. */
  lemma RoundedRate(e: int)
    ensures e >= 0 ==> RoundMetal(e) >= 0 && RoundMetal(e) == RoundMetalSigned(e)
    ensures e >= 0 && OnLattice(e) ==> RoundMetal(e) == e
  {
    if e >= 0 {
      LatticeAboveMinusTwelve(RoundMetal(e));
      RoundMetalIdempotent(e);
    }
  }

  /** The lattice point below 0 nearest to it is -0.12. */
  lemma LatticeAboveMinusTwelve(r: int)
    requires OnLattice(r) && r > -12
    ensures r >= 0
  {
    if r < 0 {
      DivUnique(r, 100, -1);
    }
  }

  /** `roundInt`: `n` hundredths rounded to the nearest half (a tie goes up),
      then truncated towards zero by `parseInt`. The result is within three
      quarters of `n / 100`, on the side of zero. */
  function RoundInt(n: int): (r: int)
    ensures n >= 0 ==> 100 * r - 25 <= n < 100 * r + 75
    ensures n <= 0 ==> 100 * r - 75 <= n < 100 * r + 25
  {
    var m := RoundDiv(2 * n, 100);
    TruncRemainder(m, 2);
    Trunc(m, 2)
  }

  /** `toScrap` of a refined amount: nine times the amount, rounded to
      hundredths, then through `roundInt`. */
  function ToScrap(h: int): (s: int)
    ensures h >= 0 ==> 100 * s - 25 <= 9 * h < 100 * s + 75
    ensures h <= 0 ==> 100 * s - 75 <= 9 * h < 100 * s + 25
  {
    RoundInt(9 * h)
  }

  /** The one-argument `toReclaimed` of a refined amount, in hundredths of a
      reclaimed: the amount's scrap over three, rounded to hundredths.
      Reconstructed: this helper is not defined in `utils.ts`. */
  function ToReclaimed(h: int): (r: int)
    ensures 3 * (2 * r - 1) <= 200 * ToScrap(h) < 3 * (2 * r + 1)
    ensures h >= 0 ==> r >= 0
  {
    RoundDiv(100 * ToScrap(h), 3)
  }

  /** `convertMetal(n / d, unit)` with the amount already divided by the
      number of units in a refined (9 for scrap, 3 for reclaimed, 1 for
      refined): round to hundredths, then snap to the lattice keeping the
      sign. Reconstructed: this helper is not defined in
      `utils.ts`. `n` is in hundredths of the unit. The result is within
      half a hundredth plus six hundredths (the rounding onto the lattice)
      of `n / d`. */
  function ConvertMetal(n: int, d: int): (h: int)
    requires d > 0
    ensures OnSignedLattice(h)
    ensures n >= 0 ==> h >= 0
    ensures n <= 0 ==> h <= 0
    ensures -13 * d <= 2 * (n - d * h) <= 13 * d
  {
    var q := RoundDiv(n, d);
    assert n >= 0 ==> q >= 0 by {
      if n >= 0 && q < 0 { MulMonotone(d, 2 * q + 1, 0); }
    }
    assert n <= 0 ==> q <= 0 by {
      if n <= 0 && q > 0 { MulMonotone(d, 1, 2 * q - 1); }
    }
    var h := RoundMetalSigned(q);
    RoundedNear(n, d, q, h);
    h
  }

  /** `convertMetal` spelled out: the rounded quotient snapped onto the
      lattice. */
  lemma ConvertMetalUnfold(n: int, d: int, q: int)
    requires d > 0 && q == RoundDiv(n, d)
    ensures ConvertMetal(n, d) == RoundMetalSigned(q)
  {
  }

  /** A quotient rounded to the nearest and then moved by at most six is
      within thirteen halves of a divisor's width of `n`. */
  lemma RoundedNear(n: int, d: int, q: int, h: int)
    requires d > 0
    requires d * (2 * q - 1) <= 2 * n < d * (2 * q + 1)
    requires Abs(h - q) <= 6
    ensures -13 * d <= 2 * (n - d * h) <= 13 * d
  {
    MulMonotone(d, q - h, 6);
    MulMonotone(d, -6, q - h);
    assert d * (q - h) == d * q - d * h;
  }

  /** `roundFloat(n / d, p)`: `n / d` rounded to `p` decimals, counted in
      units of `10^-p`. Reconstructed from its tests. */
  function RoundFloat(n: int, d: int, p: nat): (r: int)
    requires d > 0
    ensures d * (2 * r - 1) <= 2 * n * Pow10(p) < d * (2 * r + 1)
  {
    RoundDiv(n * Pow10(p), d)
  }

  /** `roundBySign(n / d)`: `Math.floor` for a non-negative value and
      `Math.ceil` for a negative one, i.e. truncation towards zero.
      Reconstructed. */
  function RoundBySign(n: int, d: int): (r: int)
    requires d > 0
    ensures Abs(n - r * d) < d
    ensures n >= 0 ==> r >= 0 && r * d <= n
    ensures n <= 0 ==> r <= 0 && r * d >= n
  {
    TruncRemainder(n, d);
    Trunc(n, d)
  }

  /** `convertExchangeToKeys(amount, exchange)`: how many whole keys an
      amount holds, both counted in the same unit; no keys when there is no
      exchange rate. Reconstructed from its tests. */
  function ConvertExchangeToKeys(amount: int, exchange: int): (keys: int)
    ensures exchange == 0 ==> keys == 0
  {
    if exchange == 0 then 0 else Trunc(amount, exchange)
  }

  /** With a positive exchange rate the whole keys leave less than one key's
      worth, never of the opposite sign to the amount. */
  lemma KeysRemainder(amount: int, exchange: int)
    ensures var keys := ConvertExchangeToKeys(amount, exchange);
      exchange > 0 ==>
        && Abs(amount - keys * exchange) < exchange
        && (amount >= 0 ==> keys >= 0 && keys * exchange <= amount)
        && (amount <= 0 ==> keys <= 0 && amount <= keys * exchange)
  {
    if exchange > 0 {
      TruncRemainder(amount, exchange);
    }
  }

  /** `isValidExchange(value, exchange)`, whose result is true when the check
      FAILS: a strictly positive amount needs a strictly positive exchange
      rate. Reconstructed from its call site in `fromKeys` (currency.ts:102-103),
      whose error message asks for an exchange value when the number of
      refined is greater than zero. */
  predicate MissingExchange(value: int, exchange: int) {
    value > 0 && exchange <= 0
  }

  /** A non-negative amount within five hundredths of the lattice point
      `w + 0.11 * d` is snapped onto exactly that point. */
  lemma {:induction false} SnapNonNegative(h: int, w: int, d: int)
    requires w >= 0 && 0 <= d <= 8 && h >= 0
    requires Abs(h - (100 * w + 11 * d)) <= 5
    ensures RoundMetal(h) == 100 * w + 11 * d
  {
    var k := h - (100 * w + 11 * d);
    if d >= 1 || k >= 0 {
      DivUnique(h, 100, w);
      RoundDivUnique(11 * d + k, 11, d);
    } else {
      DivUnique(h, 100, w - 1);
      RoundDivUnique(h - 100 * (w - 1), 11, 9);
    }
  }

  /** Any amount within five hundredths of a point `l` of the signed lattice
      is snapped onto `l` by the sign-symmetric rounding. */
  lemma {:induction false} SnapToLattice(h: int, l: int)
    requires OnSignedLattice(l)
    requires Abs(h - l) <= 5
    ensures RoundMetalSigned(h) == l
  {
    var a := Abs(l);
    var w, d := a / 100, (a % 100) / 11;
    assert a == 100 * w + 11 * d;
    if l > 0 {
      SnapNonNegative(h, w, d);
    } else if l < 0 {
      SnapNonNegative(-h, w, d);
    } else if h >= 0 {
      SnapNonNegative(h, 0, 0);
    } else {
      SnapNonNegative(-h, 0, 0);
    }
  }

  /** Rounding leaves an amount already on the lattice unchanged, so it is
      idempotent; the as-written rounding agrees on non-negative amounts. */
  lemma RoundMetalIdempotent(h: int)
    ensures OnSignedLattice(h) ==> RoundMetalSigned(h) == h
    ensures h >= 0 && OnLattice(h) ==> RoundMetal(h) == h
    ensures RoundMetalSigned(RoundMetalSigned(h)) == RoundMetalSigned(h)
  {
    if OnSignedLattice(h) {
      SnapToLattice(h, h);
    }
    SnapToLattice(RoundMetalSigned(h), RoundMetalSigned(h));
  }

  /** The sign-symmetric rounding commutes with negation. */
  lemma RoundMetalSignedOdd(h: int)
    ensures RoundMetalSigned(-h) == -RoundMetalSigned(h)
  {
  }

  /** The central lattice fact: `w + 0.11 * d` refined is exactly `9 * w + d`
      scrap, with either sign, because `9 * 0.11 * d` is within 0.08 of `d`. */
  lemma {:induction false} LatticeToScrap(w: nat, d: int)
    requires 0 <= d <= 8
    ensures ToScrap(100 * w + 11 * d) == 9 * w + d
    ensures ToScrap(-(100 * w + 11 * d)) == -(9 * w + d)
  {
    PointOfScrap(w, d);
    ScrapRoundTrip(9 * w + d);
    ScrapRoundTrip(-(9 * w + d));
  }

  /** On the lattice `toScrap` commutes with negation. */
  lemma ToScrapNegate(h: int)
    ensures OnSignedLattice(h) ==> ToScrap(-h) == -ToScrap(h)
  {
    if OnSignedLattice(h) {
      var a := Abs(h);
      LatticeDigits(a);
      LatticeToScrap(a / 100, (a % 100) / 11);
    }
  }

  /** `9 * w + d` scrap is the lattice point `w + 0.11 * d`, either sign. */
  lemma PointOfScrap(w: nat, d: int)
    requires 0 <= d <= 8
    ensures RefinedOfScrap(9 * w + d) == 100 * w + 11 * d
    ensures RefinedOfScrap(-(9 * w + d)) == -(100 * w + 11 * d)
  {
    DivUnique(9 * w + d, 9, w);
  }

  /** A lattice amount split into its whole part and ninths. */
  lemma LatticeDigits(a: int)
    requires a >= 0 && OnLattice(a)
    ensures a == 100 * (a / 100) + 11 * ((a % 100) / 11)
    ensures 0 <= (a % 100) / 11 <= 8
  {
  }

  /** Scrap to the lattice and back is the identity. */
  lemma ScrapRoundTrip(s: int)
    ensures ToScrap(RefinedOfScrap(s)) == s
  {
  }

  /** The lattice to scrap and back is the identity: together with
      `ScrapRoundTrip`, scrap counts and signed lattice points are in
      one-to-one correspondence. */
  lemma {:induction false} LatticeRoundTrip(h: int)
    requires OnSignedLattice(h)
    ensures RefinedOfScrap(ToScrap(h)) == h
  {
    var a := Abs(h);
    LatticeDigits(a);
    var w, d := a / 100, (a % 100) / 11;
    LatticeToScrap(w, d);
    PointOfScrap(w, d);
  }

  /** `toScrap(0)` is 0, and `toScrap` never decreases as its input grows. */
  lemma {:induction false} ToScrapMonotone(a: int, b: int)
    requires a <= b
    ensures ToScrap(0) == 0
    ensures ToScrap(a) <= ToScrap(b)
  {
    RoundDivMonotone(2 * (9 * a), 2 * (9 * b), 100);
    TruncMonotone(RoundDiv(2 * (9 * a), 100), RoundDiv(2 * (9 * b), 100), 2);
  }

  /** `convertMetal` of a whole number of scrap lands on the lattice point
      worth exactly that much scrap. */
  lemma {:induction false} ConvertScrap(s: int)
    ensures ConvertMetal(100 * s, 9) == RefinedOfScrap(s)
  {
    var q := RoundDiv(100 * s, 9);
    SnapToLattice(q, RefinedOfScrap(s));
  }

  /** `convertMetal` of an amount already in refined leaves a lattice amount
      alone and moves any other by at most six hundredths, keeping its sign. */
  lemma ConvertRefined(h: int)
    ensures OnSignedLattice(h) ==> ConvertMetal(h, 1) == h
    ensures Abs(ConvertMetal(h, 1) - h) <= 6
  {
    RoundDivUnique(h, 1, h);
    RoundMetalIdempotent(h);
  }

  /** Moving a lattice amount by whole refined towards zero, without
      crossing zero, keeps it on the lattice. */
  lemma LatticeShift(h: int, j: int)
    requires OnSignedLattice(h)
    requires (h >= 0 && h - 100 * j >= 0) || (h <= 0 && h - 100 * j <= 0)
    ensures OnSignedLattice(h - 100 * j)
  {
    var a := Abs(h);
    var i := if h >= 0 && h - 100 * j >= 0 then j else -j;
    assert Abs(h - 100 * j) == a - 100 * i;
    DivUnique(a - 100 * i, 100, a / 100 - i);
  }

  /** A lattice amount smaller than `w` whole refined is worth fewer than
      `9 * w` scrap. */
  lemma LatticeBelow(h: int, w: int)
    requires OnSignedLattice(h) && Abs(h) < 100 * w
    ensures Abs(ToScrap(h)) < 9 * w
  {
    LatticeRoundTrip(h);
  }

  /** A whole number of refined is worth nine scrap each. */
  lemma WholeRefined(j: int)
    ensures RefinedOfScrap(9 * j) == 100 * j
  {
    if j >= 0 {
      PointOfScrap(j, 0);
    } else {
      PointOfScrap(-j, 0);
    }
  }

  /** A scrap count expressed in reclaimed (rounded to hundredths of a
      reclaimed) and converted back with `convertMetal` is still worth
      exactly that many scrap. */
  lemma {:induction false} ConvertReclaimed(s: int)
    ensures ConvertMetal(RoundDiv(100 * s, 3), 3) == RefinedOfScrap(s)
  {
    var r := RoundDiv(100 * s, 3);
    var q := RoundDiv(r, 3);
    SnapToLattice(q, RefinedOfScrap(s));
  }

  /** An amount whose nine-fold is within 0.16 of a whole number `u` of
      refined-hundredths-times-100 converts to exactly `u` scrap. */
  lemma ToScrapNear(x: int, u: int)
    requires Abs(9 * x - 100 * u) <= 16
    ensures ToScrap(x) == u
  {
  }

  /** Adding two lattice amounts and converting to scrap gives the sum of
      their scrap counts, even though the decimal sum (0.88 + 0.88 = 1.76)
      is itself off the lattice. */
  lemma {:induction false} LatticeAdditive(s: int, t: int)
    ensures ToScrap(RefinedOfScrap(s) + RefinedOfScrap(t)) == s + t
  {
    ToScrapNear(RefinedOfScrap(s) + RefinedOfScrap(t), s + t);
  }

  /** As written, `roundMetal` is not sign-symmetric: -7.33 is moved to -7.34
      although 7.33 is left alone, and -31.33 (the refined part of -11 keys
      halved at 62.66 ref per key) to -31.34. */
  lemma RoundMetalFloorDrift()
    ensures RoundMetal(733) == 733
    ensures RoundMetal(-733) == -734
    ensures RoundMetalSigned(-733) == -733
    ensures RoundMetal(-3133) == -3134
    ensures RoundMetalSigned(-3133) == -3133
  {
    SnapNonNegative(733, 7, 3);
    SnapNonNegative(3133, 31, 3);
  }
}
